=== FILE: README.md ===
# Listings marketplace: a Dafny model of the listing logic

This project models the data-handling core of a small listings marketplace.
An administrator creates listings (vehicles, apartments), edits and approves
them, and the public browses the approved ones.

The model has four parts.

- **Browse view** (`products_view.dfy`, module `ProductsView`). This covers:
  - the approved-only base set, fetched from the full list or from the search endpoint;
  - the duplicate-free category and city option lists;
  - the three fixed price brackets;
  - the filter pipeline: category, then price bracket, then city, then the selected feature values.

  A selected feature reads `features[key]` on every listing that passed the category, price and city steps. That read throws a TypeError when `features` is null or undefined. The pipeline is therefore a function into `Completion`, which is either a list or a thrown error.
- **Listing controller** (`product_controller.dfy`, module `ProductController`). The handlers for list, add, update, delete, search and filter options are modelled as transitions of an abstract store. The store is a map from identifier to record plus the insertion order. Each transition also yields the status and body the handler sends.
- **Admin dashboard** (`admin_dashboard.dfy`, module `AdminDashboard`). This covers:
  - the "my products" table derived from the creator id;
  - pruning that table after a delete;
  - the edit dialog (open, close, single-field change, save);
  - the two "Verified" columns, which differ.
- **Category registry** (`registry.dfy`, module `Registry`). A constant table from category name to feature keys, and its lookup with an empty-list default. Names inherited from `Object.prototype`, such as `toString`, bypass that default.

The shared vocabulary has four modules:

- `JsValues` models JavaScript values. It covers truthiness, `Number()` on strings and arrays, property reads that throw on null or undefined and read array and string indexes, and `split` with one separator.
- `Sequences` holds `filter` and `[...new Set(xs)]` with their algebra.
- `Listings` holds the record, its fields, the single-field write and the `$set` patch.
- `Http` holds responses and how the browser's HTTP client reads them.

Several inputs are parameters of the model:

- the signed-in user's id;
- whether each store call or HTTP request succeeds;
- the identifier the store assigns to a new record;
- the files the upload middleware accepted.

Numbers are integers. `None` plays the role of NaN.

Three behaviours of the code are easy to miss, and the model follows the code in each:

- **The owner can change.** The add handler takes the owner from the session and ignores any `createdBy` in the body (`Backend/src/controller/ProductController.js:18-37`). So the owner looks fixed at creation. The update handler nonetheless writes every property of the request body, `createdBy` included (`Backend/src/controller/ProductController.js:70-73`, `ProductController.UpdateCanReplaceOwner`).
- **Searching for the empty string does not list everything.** The empty pattern matches only a name or description that is text, or an array holding a text element, as a `$regex` match does. A record whose name and description are both missing, numbers or other non-text values is not listed (`ProductController.EmptySearchListsAllText`).
- **Step order does not matter only without a feature-read failure.** Reordering the four steps keeps the result unchanged only when no listing's `features` is null or undefined. Otherwise an earlier step may or may not remove the listing whose feature read throws (`ProductsView.StepOrderIrrelevant` carries that precondition).

## Model

| member | source | states |
|---|---|---|
| ProductsView.ApplyFilters | frontend/src/Components/Products.jsx:65-100 | The pipeline throws exactly when a feature is selected and some listing passing category, price and city has a null or undefined `features`. Otherwise it yields exactly the listings that pass every active filter. |
| ProductsView.ApplyFiltersIsOneFilter | frontend/src/Components/Products.jsx:66-97 | A produced list equals the base set filtered by the conjunction of the active filters, so it is an order-preserving subsequence of the base set. |
| ProductsView.NoFiltersShowsEverything | frontend/src/Components/Products.jsx:66-97 | With every control empty, the base set is shown unchanged. |
| ProductsView.ApplyFiltersIdempotent | frontend/src/Components/Products.jsx:65-100 | Filtering the output again with the same controls gives the same output. |
| ProductsView.ViewOrderIsApplyFilters | frontend/src/Components/Products.jsx:65-100 | Running the four steps as a list of steps in the view's order is the view's pipeline. |
| ProductsView.RunStepsIsOneFilter | frontend/src/Components/Products.jsx:68-97 | Any sequence of steps, including repeats, is one filter by the conjunction of those steps, provided no feature read throws. |
| ProductsView.StepOrderIrrelevant | frontend/src/Components/Products.jsx:68-97 | Any order of the four steps, repeats allowed, gives the view's result, provided no feature read throws. |
| ProductsView.ScalarStagesAreOneFilter | frontend/src/Components/Products.jsx:68-85 | The category, price and city steps together keep exactly the listings that pass all three active tests, in order. |
| ProductsView.FeatureCheck | frontend/src/Components/Products.jsx:90-95 | The per-listing feature loop throws exactly when a feature is selected and `features` is null or undefined. Otherwise it accepts iff every selected value equals the listing's value strictly. |
| ProductsView.FilterByFeatures | frontend/src/Components/Products.jsx:88-96 | With a feature selected, the feature step throws iff some listing has a null or undefined `features`. Otherwise it equals filtering by "every selected value matches". |
| ProductsView.StepIsFilter | frontend/src/Components/Products.jsx:68-97 | Each step alone is the filter by its own test, or the identity when its control is empty. The feature step needs no listing with null or undefined `features` when a feature is selected; the other steps need nothing. |
| ProductsView.BracketMeaning | frontend/src/Components/Products.jsx:74-79 | Bracket `"a-b"` keeps a listing iff `Number(Price)` is a number with a ≤ it ≤ b, both ends inclusive. |
| ProductsView.NotANumberNeverInBracket | frontend/src/Components/Products.jsx:77-78 | A price that converts to NaN is outside every bracket. |
| ProductsView.OfferedBracket | frontend/src/Components/Products.jsx:74-79 | A bracket spelled `"lo-hi"` from its limits keeps exactly the listings whose `Number(Price)` lies from lo to hi. |
| ProductsView.OfferedBrackets | frontend/src/Components/Products.jsx:52-56 | The offered brackets mean [0, 1000], [1001, 5000] and [5001, 10000]. |
| ProductsView.OfferedBracketsPartition | frontend/src/Components/Products.jsx:52-56 | Every whole price from 0 to 10000 lies in exactly one offered bracket. |
| ProductsView.SelectFeature | frontend/src/Components/Products.jsx:113-126 | A feature control sets its own key and keeps every other selected key and value. |
| ProductsView.ResetFeatureStaysActive | frontend/src/Components/Products.jsx:113-126 | A feature control set back to its empty option still filters, and demands the empty string. |
| ProductsView.MissingFeatureExcluded | frontend/src/Components/Products.jsx:90-93 | A listing without the selected key is never shown. |
| ProductsView.FeatureControlsAreRegistered | Backend/src/server.js:34 | `seatingCapacity` and `fuelType`, the keys the view filters on, are both in the vehicles entry of the registry. `fuelType` is also the key the filter-options handler enumerates. |
| ProductsView.AllCategories | frontend/src/Components/Products.jsx:41 | The category options are duplicate-free, contain exactly the categories present, and are in first-occurrence order. |
| ProductsView.AllCities | frontend/src/Components/Products.jsx:46 | The city options are duplicate-free, contain exactly the locations present, and are in first-occurrence order. |
| ProductsView.CategoryOptionsAgreeWithServer | Backend/src/controller/ProductController.js:126-127 | Over the full listing, the view's category options minus "unset" are the server's distinct categories. |
| ProductsView.ChooseEndpoint | frontend/src/Components/Products.jsx:23-27 | The search endpoint is used iff the `query` parameter is present and non-empty, and it carries that query. |
| ProductsView.BaseAfterFetch | frontend/src/Components/Products.jsx:29-34 | After a successful fetch, the base set is exactly the fetched listings with a truthy `isApproved`, in order and with every copy. After a failed fetch, the base set is unchanged. |
| ProductsView.BaseSetFromStore | frontend/src/Components/Products.jsx:23-31 | End to end, the base set holds exactly the approved stored listings, narrowed to those matching the query when one is given. |
| ProductsView.FailedFetchKeepsBase | frontend/src/Components/Products.jsx:29-34 | A failed list or search request leaves the base set as it was. |
| ProductsView.TwoListingFilter | frontend/src/Components/Products.jsx:65-100 | On a two-listing base set, the output keeps the listings that pass, in their order. |
| ProductsView.CategoryExample | frontend/src/Components/Products.jsx:69-71 | Selecting "vehicles" shows the vehicle and hides the apartment. |
| ProductsView.BracketExample | frontend/src/Components/Products.jsx:74-79 | A bracket shows the listing priced inside it and hides the one priced outside it. |
| ProductsView.CategoryAndBracketExample | frontend/src/Components/Products.jsx:69-79 | With a vehicle priced outside $1001 - $5000 and an apartment priced inside it, "vehicles" alone shows the vehicle, the bracket alone shows the apartment, and both together show nothing. |
| ProductsView.FuelTypeExample | frontend/src/Components/Products.jsx:88-96 | Selecting petrol hides a diesel vehicle. Selecting diesel shows it and hides a listing without a fuel type. |
| ProductsView.NullFeaturesExample | frontend/src/Components/Products.jsx:89-91 | One listing without `features` makes any feature selection throw. |
| Http.FetchedListings | frontend/src/Components/Products.jsx:29-30 | The client sees a listing array exactly when the status is 2xx and the body is a listing array. |
| JsValues.ReadProperty | frontend/src/Components/Products.jsx:91 | Reading a key throws iff the value is null or undefined. It reads an object's own key, or undefined when the key is absent. Arrays and strings answer `length`, and a non-undefined read of another key is an in-range canonical index naming that element or character. Booleans and numbers read undefined. |
| JsValues.ReadElement | frontend/src/Components/Products.jsx:91 | Reading an array at the decimal spelling of `i` gives element `i`, and undefined past the end. |
| JsValues.ReadCharacter | frontend/src/Components/Products.jsx:91 | Reading a string at the decimal spelling of `i` gives its `i`-th character, and undefined past the end. |
| JsValues.DecimalStringIsIndex | frontend/src/Components/Products.jsx:91 | `String(i)` is a canonical index, with no leading zero, whose digits spell `i`. |
| JsValues.NumberOfDecimalString | frontend/src/Components/Products.jsx:75 | `Number` of a natural number's decimal spelling gives that number back. |
| JsValues.ToNumber | frontend/src/Components/Products.jsx:77 | `Number(Price)` is the number itself for numbers and the string conversion for text. It is 0 for null, `[]` and the empty string, and 1 or 0 for booleans. It is NaN for undefined, objects and arrays with two or more elements. A one-element array converts like its element, except that null or undefined give 0 and a boolean gives NaN. |
| JsValues.PriceTextToNumber | frontend/src/Components/Products.jsx:77 | A price stored as the decimal text of `n`, as the number `n`, or as a one-element array of that text converts to `n`. |
| JsValues.Split | frontend/src/Components/Products.jsx:75 | `split('-')` always gives at least one piece, and no piece contains the separator. |
| JsValues.SplitJoinRoundTrip | frontend/src/Components/Products.jsx:75 | Joining the pieces of a split with the separator gives the input back. |
| JsValues.SplitAfterPiece | frontend/src/Components/Products.jsx:75 | A separator-free prefix followed by the separator is the first piece of the split. |
| Sequences.Filter | frontend/src/Components/Products.jsx:70 | `filter` keeps exactly the elements that satisfy the test, as a subsequence. |
| Sequences.FilterCounts | frontend/src/Components/Products.jsx:70 | `filter` keeps every copy of an element that satisfies the test, and no copy of one that does not. |
| Sequences.FilterFusion | frontend/src/Components/Products.jsx:66-97 | Two filters in a row are one filter by the conjunction of their tests. |
| Sequences.Distinct | frontend/src/Components/Products.jsx:41 | `[...new Set(xs)]` is duplicate-free, has the same members as `xs`, and keeps first-occurrence order. |
| ProductController.Contents | Backend/src/controller/ProductController.js:7 | `find()` lists every stored record once, in insertion order. |
| ProductController.GetProducts | Backend/src/controller/ProductController.js:5-13 | On success: status 200 with every stored record, approved or not, once each and in insertion order, and the store unchanged. On store failure: 500 with "Failed to fetch products". |
| ProductController.UploadedNames | Backend/src/controller/ProductController.js:39-51 | A media field is the uploaded files' original names in upload order, or unset when nothing was uploaded under it. |
| ProductController.NewListing | Backend/src/controller/ProductController.js:18-51 | A new record takes name, description, Price, location, category and features from the body. Its owner is the session's user, its approval is unset, and its images and videos are the uploaded names. |
| ProductController.AddProduct | Backend/src/controller/ProductController.js:16-63 | On success: status 201 with only a message, exactly one new record under a fresh id, and every other record untouched. On failure: 500 with the store unchanged. |
| ProductController.AddIgnoresClientOwnership | Backend/src/controller/ProductController.js:18-37 | A client-supplied `createdBy` or `isApproved` in the body changes nothing about the saved record. |
| ProductController.NewListingIgnoresOwnership | Backend/src/controller/ProductController.js:18-37 | Two bodies that differ only in `createdBy` and `isApproved` build the same record. |
| ProductController.AddThenList | Backend/src/controller/ProductController.js:53-56 | The added record is listed next time, owned by the caller. |
| ProductController.UpdateProduct | Backend/src/controller/ProductController.js:67-84 | A missing id gives 404 and no change. Otherwise the body's fields are written verbatim, every other field and record is kept, and the response is 200 with the updated record. Store failure gives 500 and no change. |
| ProductController.ApproveThenList | Backend/src/controller/ProductController.js:73-79 | Approving a record through update makes the next listing show it as approved. |
| ProductController.UpdateCanReplaceOwner | Backend/src/controller/ProductController.js:70-73 | An update body can replace a record's owner. |
| ProductController.DeleteProduct | Backend/src/controller/ProductController.js:85-95 | On success: status 200 whether or not the id existed, no record has the id afterwards, and all other records are kept. On failure: 500 with the store unchanged. |
| ProductController.DeleteIsIdempotent | Backend/src/controller/ProductController.js:87-90 | Deleting twice equals deleting once, response included. |
| ProductController.ProjectWithout | Backend/src/controller/ProductController.js:89 | Removing an id from the order and the map removes exactly the records carrying that id from the ordered listing. |
| ProductController.DeleteThenList | Backend/src/controller/ProductController.js:89 | The listing after a delete is the previous listing without the deleted record, in the same order. |
| ProductController.SearchProducts | Backend/src/controller/ProductController.js:100-118 | On success: status 200 with exactly the records whose name or description contains the query ignoring case, in store order. On failure: 500 with "Internal server error". |
| ProductController.SearchIgnoresQueryCase | Backend/src/controller/ProductController.js:105-110 | Queries that differ only in letter case give the same result. |
| ProductController.EmptySearchListsAllText | Backend/src/controller/ProductController.js:105-110 | Searching for "" equals the full listing when every record has a textual name or description. |
| ProductController.DistinctValues | Backend/src/controller/ProductController.js:126-133 | A distinct-value set holds exactly the values the path takes over the records where it is present. |
| ProductController.GetFilterOptions | Backend/src/controller/ProductController.js:121-142 | On success: status 200 with the distinct categories, locations and `features.fuelType` values. On failure: 500 with an error body. |
| ProductController.DistinctLocationsExample | Backend/src/controller/ProductController.js:129-130 | Three records in two cities give those two cities once each. |
| Listings.With | frontend/src/Components/Dashboard/AdminDashboard.jsx:22-25 | Writing one field sets it and keeps the id and every other field. |
| Listings.WithLaws | frontend/src/Components/Dashboard/AdminDashboard.jsx:22-25 | Writing back a field's own value is the identity, and the last of two writes to a field wins. |
| Listings.Patch | Backend/src/controller/ProductController.js:73 | A `$set` of a body sets every named field to the body's value and keeps every other field and the id. |
| Listings.PatchOneField | Backend/src/controller/ProductController.js:73 | A one-property body is the single-field write. |
| Listings.PatchEmpty | Backend/src/controller/ProductController.js:73 | An empty body leaves the record as it is. |
| Registry.FeaturesFor | Backend/src/server.js:39-43 | A name inherited from `Object.prototype` returns that inherited member instead of a list. Every other lookup is a list, empty exactly for categories other than vehicles and apartments, that never lists a key twice. |
| Registry.VehiclesLookup | Backend/src/server.js:34 | Vehicles give the 11 configured keys in declared order. |
| Registry.ApartmentsLookup | Backend/src/server.js:35 | Apartments give exactly `numberOfRooms`. |
| Registry.UnknownCategoryLookup | Backend/src/server.js:41 | Any other name gives the empty list, unless it is inherited from `Object.prototype`, in which case the inherited member comes back. |
| Registry.InheritedNameLookup | Backend/src/server.js:41 | `toString` and `constructor` do not give a list, and an unconfigured name such as `cars` gives the empty one. |
| AdminDashboard.MyProducts | frontend/src/Components/Dashboard/AdminDashboard.jsx:130 | "My products" is exactly the fetched records created by the user, in order, each as many times as it was fetched. |
| AdminDashboard.LoadProducts | frontend/src/Components/Dashboard/AdminDashboard.jsx:122-133 | A successful fetch fills both tables. A failed one changes nothing. |
| AdminDashboard.HandleDelete | frontend/src/Components/Dashboard/AdminDashboard.jsx:137-152 | After a 2xx answer, "my products" loses exactly the entries with that id and keeps every other entry, each copy included, in order. The full table never changes. A failure changes nothing. |
| AdminDashboard.HandleEdit | frontend/src/Components/Dashboard/AdminDashboard.jsx:155-158 | Editing opens the dialog on the chosen record and keeps both tables. |
| AdminDashboard.CloseModal | frontend/src/Components/Dashboard/AdminDashboard.jsx:161-164 | Closing clears the selection and closes the dialog. |
| AdminDashboard.EditThenClose | frontend/src/Components/Dashboard/AdminDashboard.jsx:155-164 | Opening then closing equals closing alone, and closing is idempotent. |
| AdminDashboard.HandleChange | frontend/src/Components/Dashboard/AdminDashboard.jsx:20-25 | An input sets only the field it names to its text. Every other field and the id are unchanged. |
| AdminDashboard.HandleChangeLaws | frontend/src/Components/Dashboard/AdminDashboard.jsx:20-25 | Changes to different fields commute, and the last change to a field wins. |
| AdminDashboard.EditBody | frontend/src/Components/Dashboard/AdminDashboard.jsx:33 | The saved body names exactly the fields that are set, with their values. |
| AdminDashboard.SubmitEdit | frontend/src/Components/Dashboard/AdminDashboard.jsx:28-45 | A 2xx answer closes the dialog. A failure leaves it open. Neither table is refreshed. |
| AdminDashboard.SubmitAgainstServer | frontend/src/Components/Dashboard/AdminDashboard.jsx:28-45 | Against the update handler, saving closes the dialog exactly when the record is stored. A 404 for a missing record or a 500 leaves the dashboard as it was. |
| AdminDashboard.SubmitStoresEdits | frontend/src/Components/Dashboard/AdminDashboard.jsx:33-37 | Saving writes every set field of the edited record, and keeps the stored value of unset fields. |
| AdminDashboard.ChangeAndSave | frontend/src/Components/Dashboard/AdminDashboard.jsx:20-37 | Changing one field in the dialog and saving stores exactly the edited record. |
| AdminDashboard.VerifiedColumnsOnBooleans | frontend/src/Components/Dashboard/AdminDashboard.jsx:238-274 | "Verified" in All Products implies "Verified" in My Products. The two columns agree on booleans and on unset values. All Products tests `=== true` (line 238) and My Products tests truthiness (line 274). |
| AdminDashboard.VerifiedColumnsAfterSelect | frontend/src/Components/Dashboard/AdminDashboard.jsx:75-78 | A record whose `isApproved` is the string "true" or "false", as the select writes it, is Verified by the My Products test and not by the All Products test. |
| AdminDashboard.SelectSaveReload | frontend/src/Components/Dashboard/AdminDashboard.jsx:20-45 | Choosing "true" or "false" in the select, saving, and loading again puts the record in the full table as not verified. If the user owns it, it is also in "my products" as verified. The dialog's copy is never shown by either table. This assumes the store keeps the string as sent. |
| AdminDashboard.Loaded | frontend/src/Components/Dashboard/AdminDashboard.jsx:122-133 | A successful load from the server shows the full stored listing in store order, with "my products" derived from it and the dialog closed. |
| AdminDashboard.LoadFromServer | frontend/src/Components/Dashboard/AdminDashboard.jsx:122-133 | Loaded from the server, the full table lists every stored record and "my products" holds exactly the user's records. |
| AdminDashboard.DeleteMatchesReload | frontend/src/Components/Dashboard/AdminDashboard.jsx:137-152 | After a delete, "my products" equals what a fresh load would show. The full table still lists the deleted record. |
| AdminDashboard.AddedListingIsMine | frontend/src/Components/Dashboard/AdminDashboard.jsx:130 | A listing the user adds is in their table on the next load. |

## Left out

- **Rendering.** React rendering and effect scheduling are not modelled, nor the carousel, the users table or the menu. The filter and option lists are modelled as functions of their inputs. The `.map` call on the selected fuel-type string at `frontend/src/Components/Products.jsx:128` is render-time code and is not modelled.
- **Network and browser services.** Network calls, `localStorage`, token decoding and `alert` are not modelled. The user id and each request's success or failure are parameters.
- **Response ordering.** Responses that arrive out of order are concurrency and are not modelled.
- **Query encoding.** The search query goes into the URL without encoding; URL encoding is not modelled.
- ProductsView.BaseSetFromStore: assumes the query reaches the server unchanged. The view puts it into the URL unencoded (`frontend/src/Components/Products.jsx:26`), so a query containing `&`, `#` or `%` arrives changed, and the base set is narrowed by the changed query.
- **Floating point.** Prices are integers.
- **`Number()` spellings.** `Number()` is modelled for empty strings, optionally signed decimal digit strings, booleans, null, undefined and arrays. Whitespace, decimal points, exponents, hexadecimal and `Infinity` spellings convert to NaN here, although JavaScript accepts them.
- ProductController.SearchProducts: treats the query as literal text with ASCII-only case folding. Regular-expression metacharacters and Unicode case folding are not modelled. A missing `query` parameter is not modelled either: the query is a string.
- AdminDashboard.SelectSaveReload: assumes the store keeps `isApproved` as the string "true" or "false" that the select sends. A schema that declares `isApproved` a boolean would cast those strings to booleans in `findByIdAndUpdate` (`Backend/src/controller/ProductController.js:73`). Both "Verified" columns would then agree.
- **Unreadable identifiers.** An id the store cannot read as an ObjectId makes the store throw a cast error, and the update and delete handlers answer 500 (`Backend/src/controller/ProductController.js:80-83`, `Backend/src/controller/ProductController.js:91-94`). Identifiers are plain strings in the model, so `ProductController.UpdateProduct` and `ProductController.DeleteProduct` reach 500 only through a failed store call (`reachable == false`), and that case also stands for an uncastable id.
- **Store behaviour.** The document store is a map plus insertion order, standing in for the natural order of `find()`. The following are not modelled:
  - identifier generation (a parameter);
  - schema defaults and type casting, for example `isApproved` arriving as the string "false";
  - `createdAt` and the version key;
  - an `_id` property in an update body;
  - the flattening of array values by `distinct`.
- **Unknown body keys.** Update and create bodies are maps from property names to values. Properties that name no listing field are dropped, which assumes the store's strict schema mode. Even in strict mode the store would apply two kinds of update key that the model drops: dotted paths such as `"features.fuelType"`, and `$`-operator keys such as `$unset`.
- ProductsView.AllCategories: compares values structurally. A JavaScript `Set` compares objects and arrays by reference, so two equal-looking object categories are not merged in the source; they are in the model.
- ProductsView.AllCities: compares values structurally, as `AllCategories` does. Two equal-looking object or array locations are separate entries of the source's `Set` and one entry in the model.
- JsValues.ReadProperty: inherited members are not modelled. Every key outside an object's own properties reads undefined, so `({})["toString"]` does too, although JavaScript returns the inherited function. Booleans' and numbers' inherited members are also not modelled. Array and string index and `length` reads are modelled. A string's `length` and indexes count Unicode scalar values, not the UTF-16 code units JavaScript counts, so `"😀".length` is 1 here and 2 in JavaScript.
- JsValues.ReadCharacter: returns the `i`-th Unicode scalar value of a string. JavaScript returns the `i`-th UTF-16 code unit, which for a character outside the Basic Multilingual Plane is half of a surrogate pair.
- **Key order.** The selected features are a map. The order of `Object.entries` cannot change the filter's result, so it is not modelled.
- **JSON serialisation.** `EditBody` drops only top-level undefined fields. The rest of JSON serialisation is not modelled.
- **Route wiring and uploads.** The middleware and its disk storage are not modelled. The upload limit of five files per media field (`Backend/src/routes/productRoutes.js:22`) is kept as a precondition of `AddProduct`.
- **Diagnostics.** The `console.error` calls in every handler's error path and the `console.log` of the search results (`Backend/src/controller/ProductController.js:10-139`) write only to the server log. They are not modelled.
- **Save button state.** The edit dialog's `loading` flag (`frontend/src/Components/Dashboard/AdminDashboard.jsx:30,44`) only disables the Save button while a request is pending. It is not modelled.
- **Server setup.** The Express setup is not modelled, including the mounting of the registry's router (it is never mounted) and the unused one-time-password map. The registry lookup is modelled as a function; it cannot modify the constant table.

=== FILE: admin_dashboard.dfy ===
/**
  The admin dashboard's local state: the full listing table, the signed-in
  user's own listings, and the edit dialog with the record being edited.

  The user's identifier comes from the session token and every request's
  outcome is the response the server sent; both are parameters here. The
  dashboard never re-fetches after a change: a delete only prunes the
  user's own table, and an edit only closes the dialog.
 */
module AdminDashboard {
  import opened JsValues
  import opened Sequences
  import opened Listings
  import opened Http
  import ProductController

  datatype Dashboard = Dashboard(
    products: seq<Listing>,
    myProducts: seq<Listing>,
    selected: Option<Listing>,
    modalOpen: bool)

  const Initial: Dashboard := Dashboard([], [], None, false)

  /** `res.data.filter(product => product.createdBy === userId)`. */
  function MyProducts(data: seq<Listing>, userId: string): (mine: seq<Listing>)
    ensures forall l :: l in mine <==> l in data && l.createdBy == Str(userId)
    ensures forall l :: multiset(mine)[l] == if l.createdBy == Str(userId) then multiset(data)[l] else 0
    ensures IsSubsequence(mine, data)
  {
    FilterCounts(data, (l: Listing) => l.createdBy == Str(userId));
    Filter(data, (l: Listing) => l.createdBy == Str(userId))
  }

  /** The initial fetch of every listing: both tables are filled on success
      and left as they were on failure. */
  function LoadProducts(d: Dashboard, userId: string, response: Response): (r: Dashboard)
    ensures FetchedListings(response).None? ==> r == d
    ensures FetchedListings(response).Some? ==>
      && r.products == FetchedListings(response).value
      && r.myProducts == MyProducts(r.products, userId)
      && r.selected == d.selected && r.modalOpen == d.modalOpen
  {
    match FetchedListings(response)
    case None => d
    case Some(data) => d.(products := data, myProducts := MyProducts(data, userId))
  }

  /** `handleDelete`: once the server answers with a 2xx status, the user's
      table drops the entries with the deleted identifier; the full table is
      never touched. */
  function HandleDelete(d: Dashboard, productId: Id, response: Response): (r: Dashboard)
    ensures !IsSuccess(response) ==> r == d
    ensures r.products == d.products && r.selected == d.selected && r.modalOpen == d.modalOpen
    ensures IsSuccess(response) ==>
      forall l :: l in r.myProducts <==> l in d.myProducts && l.id != productId
    ensures IsSuccess(response) ==>
      forall l :: multiset(r.myProducts)[l] == if l.id != productId then multiset(d.myProducts)[l] else 0
    ensures IsSubsequence(r.myProducts, d.myProducts)
  {
    if IsSuccess(response) then
      FilterCounts(d.myProducts, (l: Listing) => l.id != productId);
      d.(myProducts := Filter(d.myProducts, (l: Listing) => l.id != productId))
    else
      assert d.myProducts == Filter(d.myProducts, (l: Listing) => true) by {
        FilterKeepsAll(d.myProducts, (l: Listing) => true);
      }
      d
  }

  /** `handleEdit`: opens the dialog on the chosen record. */
  function HandleEdit(d: Dashboard, product: Listing): (r: Dashboard)
    ensures r.selected == Some(product) && r.modalOpen
    ensures r.products == d.products && r.myProducts == d.myProducts
  {
    d.(selected := Some(product), modalOpen := true)
  }

  /** `closeModal`: closes the dialog and forgets the selection. */
  function CloseModal(d: Dashboard): (r: Dashboard)
    ensures r.selected == None && !r.modalOpen
    ensures r.products == d.products && r.myProducts == d.myProducts
  {
    d.(selected := None, modalOpen := false)
  }

  /** Opening and then closing the dialog leaves the dashboard as closing
      alone would, and closing twice is closing once. */
  lemma EditThenClose(d: Dashboard, product: Listing)
    ensures CloseModal(HandleEdit(d, product)) == CloseModal(d)
    ensures CloseModal(CloseModal(d)) == CloseModal(d)
  {
  }

  // ---------------------------------------------------------------------
  // The edit dialog

  /** `handleChange`: the input named after a field writes its text into
      that field of the edited record. */
  function HandleChange(edited: Listing, f: Field, value: string): (r: Listing)
    ensures r.id == edited.id
    ensures Read(r, f) == Str(value)
    ensures forall g :: g != f ==> Read(r, g) == Read(edited, g)
  {
    With(edited, f, Str(value))
  }

  /** Typing into two different inputs commutes; typing into one input
      twice keeps the last text. */
  lemma HandleChangeLaws(edited: Listing, f: Field, g: Field, v: string, w: string)
    ensures f != g ==>
      HandleChange(HandleChange(edited, f, v), g, w) == HandleChange(HandleChange(edited, g, w), f, v)
    ensures HandleChange(HandleChange(edited, f, v), f, w) == HandleChange(edited, f, w)
  {
    var a := HandleChange(HandleChange(edited, f, v), g, w);
    var b := HandleChange(HandleChange(edited, g, w), f, v);
    if f != g {
      ListingExtensionality(a, b);
    }
    WithLaws(edited, f, Str(v), Str(w));
  }

  /** The record's properties in declaration order. */
  const FieldOrder: seq<Field> :=
    [Name, Description, Price, Location, Category, Features, Images, Videos, CreatedBy, IsApproved]

  lemma FieldOrderComplete()
    ensures forall f: Field :: f in FieldOrder
  {
    forall f: Field ensures f in FieldOrder {
      match f
      case Name => assert FieldOrder[0] == f;
      case Description => assert FieldOrder[1] == f;
      case Price => assert FieldOrder[2] == f;
      case Location => assert FieldOrder[3] == f;
      case Category => assert FieldOrder[4] == f;
      case Features => assert FieldOrder[5] == f;
      case Images => assert FieldOrder[6] == f;
      case Videos => assert FieldOrder[7] == f;
      case CreatedBy => assert FieldOrder[8] == f;
      case IsApproved => assert FieldOrder[9] == f;
    }
  }

  /** The properties of the listed fields that do not hold `undefined`. */
  function DefinedProperties(edited: Listing, fields: seq<Field>): (body: map<string, JsValue>)
    ensures forall f :: FieldName(f) in body <==> f in fields && Read(edited, f) != Undefined
    ensures forall f :: FieldName(f) in body ==> body[FieldName(f)] == Read(edited, f)
  {
    if |fields| == 0 then map[]
    else
      var rest := DefinedProperties(edited, fields[1..]);
      var f0 := fields[0];
      forall f ensures FieldName(f) == FieldName(f0) ==> f == f0 {
        FieldNameInjective(f, f0);
      }
      assert forall f :: f in fields <==> f == f0 || f in fields[1..];
      if Read(edited, f0) != Undefined then rest[FieldName(f0) := Read(edited, f0)] else rest
  }

  /** The JSON body `axios.put` sends for the edited record: properties
      holding `undefined` are not serialised. */
  function EditBody(edited: Listing): (body: map<string, JsValue>)
    ensures forall f :: FieldName(f) in body <==> Read(edited, f) != Undefined
    ensures forall f :: FieldName(f) in body ==> body[FieldName(f)] == Read(edited, f)
  {
    FieldOrderComplete();
    DefinedProperties(edited, FieldOrder)
  }

  /** `handleSubmit`: a 2xx answer closes the dialog; otherwise it stays
      open. Neither table is refreshed. */
  function SubmitEdit(d: Dashboard, response: Response): (r: Dashboard)
    ensures IsSuccess(response) ==> r.selected == None && !r.modalOpen
    ensures !IsSuccess(response) ==> r == d
    ensures r.products == d.products && r.myProducts == d.myProducts
  {
    if IsSuccess(response) then CloseModal(d) else d
  }

  /** Submitting against the server: the update answers 200 exactly when
      the record exists, so the dialog closes for a stored record and stays
      as it was for a missing one (404) or an unreachable store (500). */
  lemma SubmitAgainstServer(d: Dashboard, s: ProductController.Store, id: Id, body: map<string, JsValue>, reachable: bool)
    requires ProductController.Valid(s)
    ensures var r := SubmitEdit(d, ProductController.UpdateProduct(s, id, body, reachable).response);
      && (reachable && id in s.records ==> r == CloseModal(d))
      && (!reachable || id !in s.records ==> r == d)
  {
  }

  /** Saving an edit of a stored record stores the edited record: every
      field it sets is written, and fields it leaves unset keep the stored
      value. */
  lemma SubmitStoresEdits(s: ProductController.Store, edited: Listing)
    requires ProductController.Valid(s)
    requires edited.id in s.records
    ensures var t := ProductController.UpdateProduct(s, edited.id, EditBody(edited), true);
      && t.response.status == 200
      && forall f :: Read(t.store.records[edited.id], f) ==
           (if Read(edited, f) != Undefined then Read(edited, f) else Read(s.records[edited.id], f))
  {
  }

  /** Changing one field of a stored record in the dialog and saving it
      changes exactly that field on the server. */
  lemma ChangeAndSave(s: ProductController.Store, id: Id, f: Field, value: string)
    requires ProductController.Valid(s)
    requires id in s.records
    ensures var edited := HandleChange(s.records[id], f, value);
            ProductController.UpdateProduct(s, id, EditBody(edited), true).store.records[id] == edited
  {
    var stored := s.records[id];
    var edited := HandleChange(stored, f, value);
    var updated := ProductController.UpdateProduct(s, id, EditBody(edited), true).store.records[id];
    SubmitStoresEdits(s, edited);
    forall g ensures Read(updated, g) == Read(edited, g) {
      if g != f {
        assert Read(edited, g) == Read(stored, g);
      }
    }
    ListingExtensionality(updated, edited);
  }

  // ---------------------------------------------------------------------
  // The two "Verified" columns

  /** All Products shows "Yes" for `product.isApproved === true`. */
  predicate VerifiedInAll(l: Listing)
  {
    l.isApproved == Bool(true)
  }

  /** My Products shows "Yes" for a truthy `product.isApproved`. */
  predicate VerifiedInMine(l: Listing)
  {
    Truthy(l.isApproved)
  }

  /** The columns agree on booleans and on unset values; every record the
      full table shows as verified is shown as verified in the user's
      table. */
  lemma VerifiedColumnsOnBooleans(l: Listing)
    ensures VerifiedInAll(l) ==> VerifiedInMine(l)
    ensures l.isApproved.Bool? || l.isApproved == Undefined ==> (VerifiedInAll(l) <==> VerifiedInMine(l))
  {
  }

  /** The approval select writes the text `"true"` or `"false"`: either
      answer shows as verified in the user's table and as not verified in
      the full table. */
  lemma VerifiedColumnsAfterSelect(l: Listing, choice: string)
    requires choice == "true" || choice == "false"
    ensures VerifiedInMine(HandleChange(l, IsApproved, choice))
    ensures !VerifiedInAll(HandleChange(l, IsApproved, choice))
  {
  }

  // ---------------------------------------------------------------------
  // The dashboard against the server

  /** The dashboard as a successful load from the server leaves it. */
  function Loaded(s: ProductController.Store, userId: string): (d: Dashboard)
    requires ProductController.Valid(s)
    ensures d.products == ProductController.Contents(s)
    ensures d.myProducts == MyProducts(ProductController.Contents(s), userId)
    ensures d.selected == None && !d.modalOpen
  {
    LoadProducts(Initial, userId, ProductController.GetProducts(s, true).response)
  }

  /** The approval select, saved and followed by a fresh load: the stored
      record now holds the text the select wrote, so the full table shows it
      as not verified while the owner's table shows it as verified. The
      dialog's copy itself is shown by neither table. */
  lemma SelectSaveReload(s: ProductController.Store, id: Id, userId: string, choice: string)
    requires ProductController.Valid(s)
    requires id in s.records
    requires choice == "true" || choice == "false"
    ensures var after := ProductController.UpdateProduct(s, id, EditBody(HandleChange(s.records[id], IsApproved, choice)), true).store;
      && id in after.records
      && after.records[id] in Loaded(after, userId).products
      && (s.records[id].createdBy == Str(userId) ==> after.records[id] in Loaded(after, userId).myProducts)
      && VerifiedInMine(after.records[id])
      && !VerifiedInAll(after.records[id])
  {
    var edited := HandleChange(s.records[id], IsApproved, choice);
    var after := ProductController.UpdateProduct(s, id, EditBody(edited), true).store;
    ChangeAndSave(s, id, IsApproved, choice);
    VerifiedColumnsAfterSelect(s.records[id], choice);
    assert after.records[id] in after.records.Values;
    assert Read(edited, CreatedBy) == Read(s.records[id], CreatedBy);
  }

  /** The dashboard loaded from the server lists every stored record,
      approved or not, and the user's table holds exactly their records. */
  lemma LoadFromServer(s: ProductController.Store, userId: string)
    requires ProductController.Valid(s)
    ensures forall l :: l in Loaded(s, userId).products <==> l in s.records.Values
    ensures forall l :: l in Loaded(s, userId).myProducts <==> l in s.records.Values && l.createdBy == Str(userId)
  {
  }

  /** After a successful delete, the user's table is what a fresh load
      would show, while the full table still lists the deleted record. */
  lemma DeleteMatchesReload(s: ProductController.Store, userId: string, productId: Id)
    requires ProductController.Valid(s)
    ensures HandleDelete(Loaded(s, userId), productId, ProductController.DeleteProduct(s, productId, true).response).myProducts
         == Loaded(ProductController.DeleteProduct(s, productId, true).store, userId).myProducts
    ensures productId in s.records ==>
      s.records[productId] in HandleDelete(Loaded(s, userId), productId, ProductController.DeleteProduct(s, productId, true).response).products
    ensures productId in s.records ==>
      s.records[productId] !in Loaded(ProductController.DeleteProduct(s, productId, true).store, userId).products
  {
    var all := ProductController.Contents(s);
    var mine := (l: Listing) => l.createdBy == Str(userId);
    var others := (l: Listing) => l.id != productId;
    ProductController.DeleteThenList(s, productId);
    FilterFusion(all, mine, others, (l: Listing) => mine(l) && others(l));
    FilterFusion(all, others, mine, (l: Listing) => mine(l) && others(l));
    if productId in s.records {
      assert s.records[productId].id == productId;
    }
  }

  /** A listing the user adds through the server appears in their table on
      the next load, whoever the request body names as its owner. */
  lemma AddedListingIsMine(s: ProductController.Store, req: ProductController.AddRequest, newId: Id)
    requires ProductController.Valid(s)
    requires newId !in s.records
    requires ProductController.UploadsAccepted(req.files)
    ensures ProductController.NewListing(req, newId)
      in Loaded(ProductController.AddProduct(s, req, newId, true).store, req.userId).myProducts
  {
    var after := ProductController.AddProduct(s, req, newId, true).store;
    assert after.records[newId] in after.records.Values;
  }
}

=== FILE: http.dfy ===
/**
  The JSON responses of the listing API, and how the browser's HTTP client
  (axios) reads them: a 2xx status resolves, anything else rejects.
 */
module Http {
  import opened JsValues
  import opened Listings

  /** The distinct values the `/products/filters` endpoint reports. */
  datatype FilterOptions = FilterOptions(
    category: set<JsValue>,
    location: set<JsValue>,
    fuelType: set<JsValue>)

  datatype Body =
    | Message(text: string)                       // { message: text }
    | ErrorText(text: string)                     // { error: text }
    | ListingsBody(listings: seq<Listing>)        // [ ...listings ]
    | UpdatedBody(text: string, updated: Listing) // { message: text, updatedProduct }
    | OptionsBody(options: FilterOptions)         // { filterOptions }

  datatype Response = Response(status: int, body: Body)

  predicate IsSuccess(r: Response)
  {
    200 <= r.status < 300
  }

  /** What `(await axios.get(url)).data` yields for a listing array, or
      `None` when the call rejects or the body is not an array of listings. */
  function FetchedListings(r: Response): (data: Option<seq<Listing>>)
    ensures data.Some? <==> IsSuccess(r) && r.body.ListingsBody?
    ensures data.Some? ==> data.value == r.body.listings
  {
    if IsSuccess(r) && r.body.ListingsBody? then Some(r.body.listings) else None
  }
}

=== FILE: js_values.dfy ===
/**
  JavaScript values as the browser and the server see them after JSON
  decoding, together with the few coercions the listing code relies on:
  truthiness, property reads, `Number(...)` and `String.prototype.split`.

  Numbers are modelled as mathematical integers; the value `NaN` never
  appears as a `JsValue`, it is the `None` that `ToNumber` returns.
 */
module JsValues {

  datatype Option<+T> = None | Some(value: T)

  datatype JsValue =
    | Undefined
    | Null
    | Bool(b: bool)
    | Num(n: int)
    | Str(s: string)
    | Arr(items: seq<JsValue>)
    | Obj(props: map<string, JsValue>)

  /** The outcome of evaluating JavaScript code that may throw. */
  datatype Completion<+T> = Normal(value: T) | Throw(error: string)

  const TypeError: string := "TypeError"

  /** JavaScript truthiness (`if (v)`, `v ? a : b`, `.filter(x => x.f)`). */
  predicate Truthy(v: JsValue)
  {
    match v
    case Undefined => false
    case Null => false
    case Bool(b) => b
    case Num(n) => n != 0
    case Str(s) => s != ""
    case Arr(_) => true
    case Obj(_) => true
  }

  predicate IsNullish(v: JsValue)
  {
    v.Undefined? || v.Null?
  }

  /** A key of a plain object: absent keys read as `undefined`. */
  function Get(m: map<string, JsValue>, key: string): (v: JsValue)
    ensures key !in m ==> v == Undefined
    ensures key in m ==> v == m[key]
  {
    if key in m then m[key] else Undefined
  }

  /** `v[key]`: throws a TypeError on `null`/`undefined` and reads an own key
      of an object. Arrays and strings answer `length` and their in-range
      indexes, spelled as canonical decimal strings; every other key of
      every other value reads `undefined`. */
  function ReadProperty(v: JsValue, key: string): (r: Completion<JsValue>)
    ensures r.Throw? <==> IsNullish(v)
    ensures v.Obj? ==> r == Normal(Get(v.props, key))
    ensures v.Arr? && key == "length" ==> r == Normal(Num(|v.items|))
    ensures v.Str? && key == "length" ==> r == Normal(Num(|v.s|))
    ensures v.Arr? && r.value != Undefined && key != "length" ==>
      IsIndex(key) && DigitsValue(key) < |v.items| && r.value == v.items[DigitsValue(key)]
    ensures v.Str? && r.value != Undefined && key != "length" ==>
      IsIndex(key) && DigitsValue(key) < |v.s| && r.value == Str([v.s[DigitsValue(key)]])
    ensures (v.Bool? || v.Num?) ==> r == Normal(Undefined)
  {
    match v
    case Undefined => Throw(TypeError)
    case Null => Throw(TypeError)
    case Obj(m) => Normal(Get(m, key))
    case Arr(items) =>
      if key == "length" then Normal(Num(|items|))
      else if IsIndex(key) && DigitsValue(key) < |items| then Normal(items[DigitsValue(key)])
      else Normal(Undefined)
    case Str(chars) =>
      if key == "length" then Normal(Num(|chars|))
      else if IsIndex(key) && DigitsValue(key) < |chars| then Normal(Str([chars[DigitsValue(key)]]))
      else Normal(Undefined)
    case _ => Normal(Undefined)
  }

  /** Reading the `i`-th element through its decimal spelling, as `a[i]`
      does, gives that element; one past the end reads `undefined`. */
  lemma ReadElement(items: seq<JsValue>, i: nat)
    ensures i < |items| ==> ReadProperty(Arr(items), DecimalString(i)) == Normal(items[i])
    ensures i >= |items| ==> ReadProperty(Arr(items), DecimalString(i)) == Normal(Undefined)
  {
    DecimalStringIsIndex(i);
  }

  /** The same for the characters of a string. */
  lemma ReadCharacter(chars: string, i: nat)
    ensures i < |chars| ==> ReadProperty(Str(chars), DecimalString(i)) == Normal(Str([chars[i]]))
    ensures i >= |chars| ==> ReadProperty(Str(chars), DecimalString(i)) == Normal(Undefined)
  {
    DecimalStringIsIndex(i);
  }

  // ---------------------------------------------------------------------
  // Decimal digits

  predicate IsDigit(c: char)
  {
    '0' <= c <= '9'
  }

  predicate AllDigits(s: string)
  {
    forall i :: 0 <= i < |s| ==> IsDigit(s[i])
  }

  function DigitValue(c: char): nat
    requires IsDigit(c)
  {
    (c as int) - ('0' as int)
  }

  function DigitChar(d: nat): (c: char)
    requires d < 10
    ensures IsDigit(c) && DigitValue(c) == d
  {
    (('0' as int) + d) as char
  }

  /** The value of a string of decimal digits, most significant first. */
  function DigitsValue(s: string): nat
    requires AllDigits(s)
  {
    if |s| == 0 then 0 else DigitsValue(s[..|s| - 1]) * 10 + DigitValue(s[|s| - 1])
  }

  /** The shortest decimal spelling of `n`, as `String(n)` writes it. */
  function DecimalString(n: nat): (s: string)
    ensures |s| > 0 && AllDigits(s)
  {
    if n < 10 then [DigitChar(n)] else DecimalString(n / 10) + [DigitChar(n % 10)]
  }

  /** A canonical array index: decimal digits without a leading zero. */
  predicate IsIndex(key: string)
  {
    |key| > 0 && AllDigits(key) && (key[0] != '0' || |key| == 1)
  }

  /** `String(i)` is the canonical index spelling of `i`. */
  lemma DecimalStringIsIndex(i: nat)
    ensures IsIndex(DecimalString(i)) && DigitsValue(DecimalString(i)) == i
  {
    DecimalStringLeadingDigit(i);
    DecimalStringRoundTrip(i);
  }

  /** The first digit of `String(n)` is `0` only for `n == 0`. */
  lemma {:induction false} DecimalStringLeadingDigit(n: nat)
    ensures (DecimalString(n)[0] == '0') <==> n == 0
    decreases n
  {
    if n >= 10 {
      DecimalStringLeadingDigit(n / 10);
      assert DecimalString(n)[0] == DecimalString(n / 10)[0];
    }
  }

  lemma {:induction false} DecimalStringRoundTrip(n: nat)
    ensures DigitsValue(DecimalString(n)) == n
    decreases n
  {
    if n >= 10 {
      var s := DecimalString(n);
      DecimalStringRoundTrip(n / 10);
      assert s[..|s| - 1] == DecimalString(n / 10);
    }
  }

  /** `Number(s)` for strings: the empty string is 0, an optionally signed
      run of decimal digits is its value, and every other string is NaN. */
  function StringToNumber(s: string): Option<int>
  {
    if s == "" then Some(0)
    else if (s[0] == '-' || s[0] == '+') && |s| > 1 && AllDigits(s[1..]) then
      var magnitude: int := DigitsValue(s[1..]);
      Some(if s[0] == '-' then -magnitude else magnitude)
    else if AllDigits(s) then Some(DigitsValue(s))
    else None
  }

  /** `Number(String(n))` gives `n` back for every natural number. */
  lemma NumberOfDecimalString(n: nat)
    ensures StringToNumber(DecimalString(n)) == Some(n)
  {
    DecimalStringRoundTrip(n);
  }

  /** `Number(v)`. An array converts through its string form: `[]` is 0, a
      one-element array converts like its element (with `null`/`undefined`
      spelled as the empty string), and a longer one contains a comma. */
  function ToNumber(v: JsValue): (r: Option<int>)
    ensures v.Num? ==> r == Some(v.n)
    ensures v.Undefined? || v.Obj? ==> r == None
    ensures v.Arr? && |v.items| >= 2 ==> r == None
    ensures v.Str? ==> r == StringToNumber(v.s)
    ensures v.Null? ==> r == Some(0)
    ensures v.Bool? ==> r == Some(if v.b then 1 else 0)
    ensures v.Arr? && |v.items| == 0 ==> r == Some(0)
    ensures v.Arr? && |v.items| == 1 ==>
      r == (if IsNullish(v.items[0]) then Some(0) else if v.items[0].Bool? then None else ToNumber(v.items[0]))
  {
    match v
    case Undefined => None
    case Null => Some(0)
    case Bool(b) => Some(if b then 1 else 0)
    case Num(n) => Some(n)
    case Str(s) => StringToNumber(s)
    case Obj(_) => None
    case Arr(items) =>
      if |items| == 0 then Some(0)
      else if |items| >= 2 then None
      else
        match items[0]
        case Undefined => Some(0)
        case Null => Some(0)
        case Bool(_) => None
        case Num(n) => Some(n)
        case Str(s) => StringToNumber(s)
        case Obj(_) => None
        case Arr(inner) => ToNumber(Arr(inner))
  }

  /** A price stored as the text of a natural number converts to that
      number, as does the number itself and a one-element array of either. */
  lemma PriceTextToNumber(n: nat)
    ensures ToNumber(Str(DecimalString(n))) == Some(n)
    ensures ToNumber(Num(n)) == Some(n)
    ensures ToNumber(Arr([Str(DecimalString(n))])) == Some(n)
  {
    NumberOfDecimalString(n);
  }

  // ---------------------------------------------------------------------
  // String.prototype.split with a one-character separator

  /** `s.split(sep)`: the maximal separator-free pieces, always at least one. */
  function Split(s: string, sep: char): (parts: seq<string>)
    ensures |parts| >= 1
    ensures forall i :: 0 <= i < |parts| ==> sep !in parts[i]
  {
    if |s| == 0 then [""]
    else
      var rest := Split(s[1..], sep);
      if s[0] == sep then [""] + rest
      else [[s[0]] + rest[0]] + rest[1..]
  }

  /** `parts.join(sep)`. */
  function Join(parts: seq<string>, sep: char): string
    requires |parts| >= 1
  {
    if |parts| == 1 then parts[0] else parts[0] + [sep] + Join(parts[1..], sep)
  }

  /** Splitting loses nothing: joining the pieces back gives the input. */
  lemma {:induction false} SplitJoinRoundTrip(s: string, sep: char)
    ensures Join(Split(s, sep), sep) == s
  {
    if |s| > 0 {
      var rest := Split(s[1..], sep);
      SplitJoinRoundTrip(s[1..], sep);
      if s[0] == sep {
        assert Split(s, sep)[1..] == rest;
      } else {
        var parts := Split(s, sep);
        if |rest| == 1 {
          assert parts == [[s[0]] + rest[0]];
        } else {
          assert parts[1..] == rest[1..];
          assert Join(rest, sep) == rest[0] + [sep] + Join(rest[1..], sep);
        }
      }
    }
  }

  /** A separator-free prefix followed by the separator is the first piece. */
  lemma {:induction false} SplitAfterPiece(a: string, sep: char, b: string)
    requires sep !in a
    ensures Split(a + [sep] + b, sep) == [a] + Split(b, sep)
  {
    if |a| > 0 {
      var s := a + [sep] + b;
      assert s[1..] == a[1..] + [sep] + b;
      SplitAfterPiece(a[1..], sep, b);
      assert [a[0]] + a[1..] == a;
    } else {
      assert a + [sep] + b == [sep] + b;
      assert ([sep] + b)[1..] == b;
    }
  }

  /** A string without the separator splits into itself alone. */
  lemma {:induction false} SplitWithoutSeparator(s: string, sep: char)
    requires sep !in s
    ensures Split(s, sep) == [s]
  {
    if |s| > 0 {
      SplitWithoutSeparator(s[1..], sep);
      assert [s[0]] + s[1..] == s;
    }
  }
}

=== FILE: listings.dfy ===
/**
  The listing (the `Product` document) as both the server and the browser
  handle it, and the field-level overwrite that both the update handler and
  the dashboard's edit form perform.

  Every field except the identifier holds an arbitrary JavaScript value:
  nothing validates request bodies, so a field holds whatever a client sent.
  A field that was never set reads as `Undefined`.
 */
module Listings {
  import opened JsValues

  type Id = string

  datatype Listing = Listing(
    id: Id,
    name: JsValue,
    description: JsValue,
    price: JsValue,
    location: JsValue,
    category: JsValue,
    features: JsValue,
    images: JsValue,
    videos: JsValue,
    createdBy: JsValue,
    isApproved: JsValue)

  /** The fields a request body or an edit form can name. The identifier is
      not among them: it is the key under which the record is stored. */
  datatype Field =
    | Name | Description | Price | Location | Category
    | Features | Images | Videos | CreatedBy | IsApproved

  /** The property name of each field in JSON bodies and in the source. */
  function FieldName(f: Field): string
  {
    match f
    case Name => "name"
    case Description => "description"
    case Price => "Price"
    case Location => "location"
    case Category => "category"
    case Features => "features"
    case Images => "images"
    case Videos => "videos"
    case CreatedBy => "createdBy"
    case IsApproved => "isApproved"
  }

  /** Different fields have different property names. */
  lemma FieldNameInjective(f: Field, g: Field)
    ensures FieldName(f) == FieldName(g) ==> f == g
  {
  }

  /** An empty record with the given identifier: every field unset. */
  function Blank(id: Id): (l: Listing)
    ensures l.id == id
  {
    Listing(id, Undefined, Undefined, Undefined, Undefined, Undefined,
            Undefined, Undefined, Undefined, Undefined, Undefined)
  }

  function Read(l: Listing, f: Field): JsValue
  {
    match f
    case Name => l.name
    case Description => l.description
    case Price => l.price
    case Location => l.location
    case Category => l.category
    case Features => l.features
    case Images => l.images
    case Videos => l.videos
    case CreatedBy => l.createdBy
    case IsApproved => l.isApproved
  }

  /** `{ ...l, [FieldName(f)]: v }`. */
  function With(l: Listing, f: Field, v: JsValue): (r: Listing)
    ensures r.id == l.id
    ensures Read(r, f) == v
    ensures forall g :: g != f ==> Read(r, g) == Read(l, g)
  {
    match f
    case Name => l.(name := v)
    case Description => l.(description := v)
    case Price => l.(price := v)
    case Location => l.(location := v)
    case Category => l.(category := v)
    case Features => l.(features := v)
    case Images => l.(images := v)
    case Videos => l.(videos := v)
    case CreatedBy => l.(createdBy := v)
    case IsApproved => l.(isApproved := v)
  }

  /** Two records with the same identifier and the same fields are equal. */
  lemma {:induction false} ListingExtensionality(l: Listing, m: Listing)
    requires l.id == m.id
    requires forall f :: Read(l, f) == Read(m, f)
    ensures l == m
  {
    assert Read(l, Name) == Read(m, Name);
    assert Read(l, Description) == Read(m, Description);
    assert Read(l, Price) == Read(m, Price);
    assert Read(l, Location) == Read(m, Location);
    assert Read(l, Category) == Read(m, Category);
    assert Read(l, Features) == Read(m, Features);
    assert Read(l, Images) == Read(m, Images);
    assert Read(l, Videos) == Read(m, Videos);
    assert Read(l, CreatedBy) == Read(m, CreatedBy);
    assert Read(l, IsApproved) == Read(m, IsApproved);
  }

  /** Writing back what a field already holds changes nothing, and a second
      write to the same field wins over the first. */
  lemma WithLaws(l: Listing, f: Field, v: JsValue, w: JsValue)
    ensures With(l, f, Read(l, f)) == l
    ensures With(With(l, f, v), f, w) == With(l, f, w)
  {
    ListingExtensionality(With(l, f, Read(l, f)), l);
    ListingExtensionality(With(With(l, f, v), f, w), With(l, f, w));
  }

  /** A request-body property: absent properties read as `undefined`. */
  function BodyValue(body: map<string, JsValue>, f: Field): JsValue
  {
    Get(body, FieldName(f))
  }

  /** Field-by-field `$set` of a request body onto a record: every field the
      body names takes the body's value verbatim, every other field keeps
      its value. Properties that name no field of the record are dropped. */
  function Patch(l: Listing, body: map<string, JsValue>): (r: Listing)
    ensures r.id == l.id
    ensures forall f :: Read(r, f) == (if FieldName(f) in body then body[FieldName(f)] else Read(l, f))
  {
    Listing(
      l.id,
      Overwrite(body, Name, l.name),
      Overwrite(body, Description, l.description),
      Overwrite(body, Price, l.price),
      Overwrite(body, Location, l.location),
      Overwrite(body, Category, l.category),
      Overwrite(body, Features, l.features),
      Overwrite(body, Images, l.images),
      Overwrite(body, Videos, l.videos),
      Overwrite(body, CreatedBy, l.createdBy),
      Overwrite(body, IsApproved, l.isApproved))
  }

  function Overwrite(body: map<string, JsValue>, f: Field, current: JsValue): JsValue
  {
    if FieldName(f) in body then body[FieldName(f)] else current
  }

  /** A body with one property is the single-field write. */
  lemma PatchOneField(l: Listing, f: Field, v: JsValue)
    ensures Patch(l, map[FieldName(f) := v]) == With(l, f, v)
  {
    forall g ensures Read(Patch(l, map[FieldName(f) := v]), g) == Read(With(l, f, v), g) {
      FieldNameInjective(f, g);
    }
    ListingExtensionality(Patch(l, map[FieldName(f) := v]), With(l, f, v));
  }

  /** An empty body leaves the record as it is. */
  lemma PatchEmpty(l: Listing)
    ensures Patch(l, map[]) == l
  {
    ListingExtensionality(Patch(l, map[]), l);
  }
}

=== FILE: product_controller.dfy ===
/**
  The listing controller: the HTTP handlers for listing, creating, updating,
  deleting, searching and enumerating filter options, each a transition of
  an abstract document store that also yields the response it sends.

  The collection is a map from identifier to record plus the order in which
  the records were inserted (the order a plain `find()` returns them in).
  Whether the store call succeeds is a parameter (`reachable`): every
  handler answers a failed store call with status 500 and a fixed message,
  and leaves the store as it was.
 */
module ProductController {
  import opened JsValues
  import opened Sequences
  import opened Listings
  import opened Http

  datatype Store = Store(order: seq<Id>, records: map<Id, Listing>)

  /** Each stored identifier appears once in the insertion order, and every
      record carries the identifier it is stored under. */
  predicate Valid(s: Store)
  {
    && NoDuplicates(s.order)
    && (forall k :: k in s.order ==> k in s.records)
    && (forall k :: k in s.records ==> k in s.order && s.records[k].id == k)
  }

  /** What `find()` returns: every record, in insertion order. */
  function Contents(s: Store): (ls: seq<Listing>)
    requires Valid(s)
    ensures |ls| == |s.order|
    ensures forall i :: 0 <= i < |ls| ==> ls[i] == s.records[s.order[i]]
    ensures forall l :: l in ls <==> l in s.records.Values
  {
    var ls := seq(|s.order|, i requires 0 <= i < |s.order| => s.records[s.order[i]]);
    assert forall l :: l in s.records.Values ==> l in ls by {
      forall l | l in s.records.Values ensures l in ls {
        var k :| k in s.records && s.records[k] == l;
        var i :| 0 <= i < |s.order| && s.order[i] == k;
        assert ls[i] == l;
      }
    }
    ls
  }

  /** The state after a handler ran, with the response it sent. */
  datatype Transition = Transition(store: Store, response: Response)

  // ---------------------------------------------------------------------
  // GET /get-products

  function GetProducts(s: Store, reachable: bool): (t: Transition)
    requires Valid(s)
    ensures t.store == s
    ensures reachable ==> t.response.status == 200 && t.response.body.ListingsBody?
    ensures reachable ==> forall l :: l in t.response.body.listings <==> l in s.records.Values
    ensures reachable ==> t.response.body.listings == Contents(s)
    ensures !reachable ==> t.response == Response(500, Message("Failed to fetch products"))
  {
    if reachable then Transition(s, Response(200, ListingsBody(Contents(s))))
    else Transition(s, Response(500, Message("Failed to fetch products")))
  }

  // ---------------------------------------------------------------------
  // POST /add-products

  /** An uploaded file as the upload middleware describes it. */
  datatype UploadedFile = UploadedFile(originalname: string)

  datatype AddRequest = AddRequest(
    body: map<string, JsValue>,                // req.body
    userId: string,                            // req.user.userId, from the session
    files: map<string, seq<UploadedFile>>)     // req.files, per form field

  /** The upload middleware accepts at most five files in each of the two
      media fields and rejects the request before the handler otherwise; a
      field appears in `req.files` only when at least one file came in it. */
  const MaxFilesPerField: nat := 5

  predicate UploadsAccepted(files: map<string, seq<UploadedFile>>)
  {
    forall field :: field in files ==> (field == "images" || field == "videos") && 1 <= |files[field]| <= MaxFilesPerField
  }

  /** The fields a new listing copies from the request body. */
  const FieldsFromBody: set<Field> := {Name, Description, Price, Location, Category, Features}

  /** The original names of the files uploaded under `field`, in upload
      order, or unset when nothing was uploaded under it. */
  function UploadedNames(files: map<string, seq<UploadedFile>>, field: string): (v: JsValue)
    ensures field !in files ==> v == Undefined
    ensures field in files ==> v.Arr? && |v.items| == |files[field]|
    ensures field in files ==> forall i :: 0 <= i < |files[field]| ==> v.items[i] == Str(files[field][i].originalname)
  {
    if field in files then
      Arr(seq(|files[field]|, i requires 0 <= i < |files[field]| => Str(files[field][i].originalname)))
    else Undefined
  }

  /** The record `addProduct` builds before saving it. */
  function NewListing(req: AddRequest, id: Id): (l: Listing)
    ensures l.id == id
    ensures l.createdBy == Str(req.userId)
    ensures l.isApproved == Undefined
    ensures forall f :: f in FieldsFromBody ==> Read(l, f) == BodyValue(req.body, f)
    ensures l.images == UploadedNames(req.files, "images")
    ensures l.videos == UploadedNames(req.files, "videos")
  {
    Listing(
      id := id,
      name := BodyValue(req.body, Name),
      description := BodyValue(req.body, Description),
      price := BodyValue(req.body, Price),
      location := BodyValue(req.body, Location),
      category := BodyValue(req.body, Category),
      features := BodyValue(req.body, Features),
      images := UploadedNames(req.files, "images"),
      videos := UploadedNames(req.files, "videos"),
      createdBy := Str(req.userId),
      isApproved := Undefined)
  }

  /** `newId` is the identifier the store generates for the saved record. */
  function AddProduct(s: Store, req: AddRequest, newId: Id, reachable: bool): (t: Transition)
    requires Valid(s)
    requires newId !in s.records
    requires UploadsAccepted(req.files)
    ensures Valid(t.store)
    ensures reachable ==> t.response == Response(201, Message("Product added successfully"))
    ensures reachable ==> t.store.records.Keys == s.records.Keys + {newId}
    ensures reachable ==> |t.store.records| == |s.records| + 1
    ensures reachable ==> forall k :: k in s.records ==> t.store.records[k] == s.records[k]
    ensures reachable ==> t.store.records[newId] == NewListing(req, newId)
    ensures reachable ==> t.store.order == s.order + [newId]
    ensures !reachable ==> t == Transition(s, Response(500, Message("Failed to add product")))
  {
    if reachable then
      var l := NewListing(req, newId);
      var s' := Store(s.order + [newId], s.records[newId := l]);
      AppendFresh(s.order, newId);
      Transition(s', Response(201, Message("Product added successfully")))
    else Transition(s, Response(500, Message("Failed to add product")))
  }

  /** Appending an identifier not yet in the order keeps it duplicate-free. */
  lemma AppendFresh(order: seq<Id>, newId: Id)
    requires NoDuplicates(order) && newId !in order
    ensures NoDuplicates(order + [newId])
  {
    forall i, j | 0 <= i < j < |order| + 1 ensures (order + [newId])[i] != (order + [newId])[j] {
      if j == |order| {
        assert order[i] in order;
      }
    }
  }

  /** Whatever `createdBy` or `isApproved` a client puts in the body, the
      saved record is the same: the owner comes from the session and the
      approval flag is left unset. */
  lemma AddIgnoresClientOwnership(s: Store, req: AddRequest, newId: Id, owner: JsValue, approved: JsValue)
    requires Valid(s)
    requires newId !in s.records
    requires UploadsAccepted(req.files)
    ensures var forged := req.(body := req.body["createdBy" := owner]["isApproved" := approved]);
            AddProduct(s, forged, newId, true) == AddProduct(s, req, newId, true)
  {
    var forged := req.(body := req.body["createdBy" := owner]["isApproved" := approved]);
    NewListingIgnoresOwnership(req, forged, newId);
  }

  /** The record built from a body does not depend on the body's
      `createdBy` and `isApproved`. */
  lemma NewListingIgnoresOwnership(req: AddRequest, forged: AddRequest, newId: Id)
    requires forged.userId == req.userId && forged.files == req.files
    requires forall key :: key != "createdBy" && key != "isApproved" ==>
      (key in forged.body <==> key in req.body) && (key in req.body ==> forged.body[key] == req.body[key])
    ensures NewListing(forged, newId) == NewListing(req, newId)
  {
    forall f ensures Read(NewListing(forged, newId), f) == Read(NewListing(req, newId), f) {
      if f in FieldsFromBody {
        assert FieldName(f) != "createdBy" && FieldName(f) != "isApproved";
        assert BodyValue(forged.body, f) == BodyValue(req.body, f);
      }
    }
    ListingExtensionality(NewListing(forged, newId), NewListing(req, newId));
  }

  /** A listing saved by `addProduct` is listed by the next `getProducts`,
      owned by the caller. */
  lemma AddThenList(s: Store, req: AddRequest, newId: Id)
    requires Valid(s)
    requires newId !in s.records
    requires UploadsAccepted(req.files)
    ensures var after := AddProduct(s, req, newId, true).store;
            exists l :: l in GetProducts(after, true).response.body.listings && l.id == newId && l.createdBy == Str(req.userId)
  {
    var after := AddProduct(s, req, newId, true).store;
    assert after.records[newId] in after.records.Values;
  }

  // ---------------------------------------------------------------------
  // PUT /products/:id

  function UpdateProduct(s: Store, id: Id, body: map<string, JsValue>, reachable: bool): (t: Transition)
    requires Valid(s)
    ensures Valid(t.store)
    ensures !reachable ==> t == Transition(s, Response(500, Message("Failed to update product")))
    ensures reachable && id !in s.records ==> t == Transition(s, Response(404, Message("Product not found")))
    ensures reachable && id in s.records ==>
      && t.store.order == s.order
      && t.store.records.Keys == s.records.Keys
      && (forall k :: k in s.records && k != id ==> t.store.records[k] == s.records[k])
      && t.store.records[id].id == id
      && (forall f :: Read(t.store.records[id], f) ==
            (if FieldName(f) in body then body[FieldName(f)] else Read(s.records[id], f)))
      && t.response == Response(200, UpdatedBody("Product updated successfully", t.store.records[id]))
  {
    if !reachable then Transition(s, Response(500, Message("Failed to update product")))
    else if id !in s.records then Transition(s, Response(404, Message("Product not found")))
    else
      var updated := Patch(s.records[id], body);
      Transition(Store(s.order, s.records[id := updated]),
                 Response(200, UpdatedBody("Product updated successfully", updated)))
  }


  /** Approving a listing through the update endpoint shows in the next
      listing of all products. */
  lemma ApproveThenList(s: Store, id: Id)
    requires Valid(s)
    requires id in s.records
    ensures var after := UpdateProduct(s, id, map["isApproved" := Bool(true)], true).store;
            exists l :: l in GetProducts(after, true).response.body.listings && l.id == id && l.isApproved == Bool(true)
  {
    var after := UpdateProduct(s, id, map["isApproved" := Bool(true)], true).store;
    assert Read(after.records[id], IsApproved) == Bool(true);
    assert after.records[id] in after.records.Values;
  }

  /** Nothing restricts which fields an update names: the owner recorded at
      creation can be replaced by any value. */
  lemma UpdateCanReplaceOwner(s: Store, id: Id, owner: JsValue)
    requires Valid(s)
    requires id in s.records
    ensures UpdateProduct(s, id, map["createdBy" := owner], true).store.records[id].createdBy == owner
  {
    assert Read(UpdateProduct(s, id, map["createdBy" := owner], true).store.records[id], CreatedBy) == owner;
  }

  // ---------------------------------------------------------------------
  // DELETE /products/remove/:productId

  function DeleteProduct(s: Store, id: Id, reachable: bool): (t: Transition)
    requires Valid(s)
    ensures Valid(t.store)
    ensures reachable ==> t.response == Response(200, Message("Product deleted successfully"))
    ensures reachable ==> id !in t.store.records
    ensures reachable ==> t.store.records.Keys == s.records.Keys - {id}
    ensures reachable ==> forall k :: k in t.store.records ==> t.store.records[k] == s.records[k]
    ensures reachable ==> IsSubsequence(t.store.order, s.order)
    ensures !reachable ==> t == Transition(s, Response(500, ErrorText("Failed to delete product")))
  {
    if reachable then
      var order := Filter(s.order, k => k != id);
      FilterKeepsNoDuplicates(s.order, k => k != id);
      Transition(Store(order, s.records - {id}), Response(200, Message("Product deleted successfully")))
    else Transition(s, Response(500, ErrorText("Failed to delete product")))
  }

  /** Deleting an identifier that is already gone is not an error and
      changes nothing. */
  lemma DeleteIsIdempotent(s: Store, id: Id)
    requires Valid(s)
    ensures DeleteProduct(DeleteProduct(s, id, true).store, id, true) == DeleteProduct(s, id, true)
  {
    var once := DeleteProduct(s, id, true);
    assert id !in once.store.order;
    FilterKeepsAll(once.store.order, k => k != id);
    assert once.store.records - {id} == once.store.records;
  }

  /** The records named by a sequence of identifiers, in that order. */
  function Project(order: seq<Id>, records: map<Id, Listing>): (ls: seq<Listing>)
    requires forall k :: k in order ==> k in records
    ensures |ls| == |order|
    ensures forall i :: 0 <= i < |order| ==> ls[i] == records[order[i]]
  {
    if |order| == 0 then []
    else
      assert forall k :: k in order[1..] ==> k in order;
      [records[order[0]]] + Project(order[1..], records)
  }

  /** Dropping an identifier from the order and its record from the map
      drops exactly the records carrying that identifier. */
  lemma {:induction false} ProjectWithout(order: seq<Id>, records: map<Id, Listing>, id: Id)
    requires forall k :: k in order ==> k in records && records[k].id == k
    ensures forall k :: k in Filter(order, k => k != id) ==> k in records - {id}
    ensures Project(Filter(order, k => k != id), records - {id})
         == Filter(Project(order, records), (l: Listing) => l.id != id)
  {
    if |order| > 0 {
      var rest := order[1..];
      ProjectWithout(rest, records, id) by {
        assert forall k :: k in rest ==> k in order;
      }
      ProjectWithoutStep(order, records, id);
    }
  }

  /** The inductive step of `ProjectWithout`: the first identifier is kept
      on both sides or dropped on both sides. */
  lemma ProjectWithoutStep(order: seq<Id>, records: map<Id, Listing>, id: Id)
    requires |order| > 0
    requires forall k :: k in order ==> k in records && records[k].id == k
    requires forall k :: k in Filter(order[1..], k => k != id) ==> k in records - {id}
    requires Project(Filter(order[1..], k => k != id), records - {id})
          == Filter(Project(order[1..], records), (l: Listing) => l.id != id)
    ensures Project(Filter(order, k => k != id), records - {id})
         == Filter(Project(order, records), (l: Listing) => l.id != id)
  {
    var rest := order[1..];
    var first := records[order[0]];
    assert first.id == order[0] by {
      assert order[0] in order;
    }
    assert Project(order, records) == [first] + Project(rest, records);
    if order[0] != id {
      assert Filter(order, k => k != id) == [order[0]] + Filter(rest, k => k != id);
    } else {
      assert Filter(order, k => k != id) == Filter(rest, k => k != id);
    }
  }

  /** After a delete, the listing is the previous listing without the
      records carrying the deleted identifier, in the same order. */
  lemma DeleteThenList(s: Store, id: Id)
    requires Valid(s)
    ensures Contents(DeleteProduct(s, id, true).store) == Filter(Contents(s), (l: Listing) => l.id != id)
  {
    var after := DeleteProduct(s, id, true).store;
    ProjectWithout(s.order, s.records, id);
    assert Contents(after) == Project(after.order, after.records);
    assert Contents(s) == Project(s.order, s.records);
  }

  // ---------------------------------------------------------------------
  // GET /products/search?query=

  /** Case folding of the ASCII letters. */
  function LowerChar(c: char): char
  {
    if 'A' <= c <= 'Z' then (c as int - 'A' as int + 'a' as int) as char else c
  }

  function Lower(s: string): (r: string)
    ensures |r| == |s|
    ensures forall i :: 0 <= i < |s| ==> r[i] == LowerChar(s[i])
  {
    seq(|s|, i requires 0 <= i < |s| => LowerChar(s[i]))
  }

  /** The query occurs in the text at position `i`, ignoring case. */
  predicate OccursAt(text: string, query: string, i: int)
  {
    0 <= i && i + |query| <= |text| && Lower(text[i..i + |query|]) == Lower(query)
  }

  /** The query occurs somewhere in the text, ignoring case. */
  predicate ContainsIgnoringCase(text: string, query: string)
  {
    exists i :: 0 <= i <= |text| && OccursAt(text, query, i)
  }

  /** A case-insensitive pattern matches a string field, and an array field
      through any of its string elements; other values never match. */
  predicate FieldMatches(v: JsValue, query: string)
  {
    match v
    case Str(text) => ContainsIgnoringCase(text, query)
    case Arr(items) => exists i :: 0 <= i < |items| && items[i].Str? && ContainsIgnoringCase(items[i].s, query)
    case _ => false
  }

  predicate MatchesQuery(l: Listing, query: string)
  {
    FieldMatches(l.name, query) || FieldMatches(l.description, query)
  }

  function SearchProducts(s: Store, query: string, reachable: bool): (t: Transition)
    requires Valid(s)
    ensures t.store == s
    ensures reachable ==> t.response.status == 200 && t.response.body.ListingsBody?
    ensures reachable ==> forall l :: l in t.response.body.listings <==> l in s.records.Values && MatchesQuery(l, query)
    ensures reachable ==> IsSubsequence(t.response.body.listings, Contents(s))
    ensures !reachable ==> t.response == Response(500, Message("Internal server error"))
  {
    if reachable then Transition(s, Response(200, ListingsBody(Filter(Contents(s), l => MatchesQuery(l, query)))))
    else Transition(s, Response(500, Message("Internal server error")))
  }

  /** Only the case-folded query matters. */
  lemma SearchIgnoresQueryCase(s: Store, q1: string, q2: string)
    requires Valid(s)
    requires Lower(q1) == Lower(q2)
    ensures SearchProducts(s, q1, true) == SearchProducts(s, q2, true)
  {
    assert |q1| == |q2|;
    forall text: string ensures ContainsIgnoringCase(text, q1) == ContainsIgnoringCase(text, q2) {
      forall i ensures OccursAt(text, q1, i) == OccursAt(text, q2, i) {
      }
    }
    forall l ensures MatchesQuery(l, q1) == MatchesQuery(l, q2) {
    }
    FilterCongruent(Contents(s), l => MatchesQuery(l, q1), l => MatchesQuery(l, q2));
  }

  /** The empty pattern matches every string, so searching for "" lists
      every record whose name or description is text (or holds text). */
  lemma EmptySearchListsAllText(s: Store)
    requires Valid(s)
    requires forall l :: l in s.records.Values ==> l.name.Str? || l.description.Str?
    ensures SearchProducts(s, "", true).response == GetProducts(s, true).response
  {
    forall l | l in Contents(s) ensures MatchesQuery(l, "") {
      if l.name.Str? {
        assert OccursAt(l.name.s, "", 0);
      } else {
        assert OccursAt(l.description.s, "", 0);
      }
    }
    FilterKeepsAll(Contents(s), l => MatchesQuery(l, ""));
  }

  // ---------------------------------------------------------------------
  // GET /products/filters

  /** `features.fuelType`: present only when `features` is an object. */
  function FuelType(l: Listing): JsValue
  {
    if l.features.Obj? then Get(l.features.props, "fuelType") else Undefined
  }

  /** `distinct(path)`: the set of values the path has, over the records in
      which it is present. */
  function DistinctValues(s: Store, at: Listing -> JsValue): (vs: set<JsValue>)
    ensures Undefined !in vs
    ensures forall l :: l in s.records.Values && at(l) != Undefined ==> at(l) in vs
    ensures forall v :: v in vs ==> exists l :: l in s.records.Values && at(l) == v
  {
    set l | l in s.records.Values && at(l) != Undefined :: at(l)
  }

  function GetFilterOptions(s: Store, reachable: bool): (t: Transition)
    requires Valid(s)
    ensures t.store == s
    ensures reachable ==> t.response.status == 200 && t.response.body.OptionsBody?
    ensures reachable ==> t.response.body.options.category == DistinctValues(s, (l: Listing) => l.category)
    ensures reachable ==> t.response.body.options.location == DistinctValues(s, (l: Listing) => l.location)
    ensures reachable ==> t.response.body.options.fuelType == DistinctValues(s, FuelType)
    ensures !reachable ==> t.response == Response(500, ErrorText("Internal server error"))
  {
    if reachable then
      var options := FilterOptions(
        DistinctValues(s, (l: Listing) => l.category),
        DistinctValues(s, (l: Listing) => l.location),
        DistinctValues(s, FuelType));
      Transition(s, Response(200, OptionsBody(options)))
    else Transition(s, Response(500, ErrorText("Internal server error")))
  }

  /** Three records in two cities give the two cities, each once. */
  lemma DistinctLocationsExample()
    ensures var a := Blank("a").(location := Str("NY"));
            var b := Blank("b").(location := Str("NY"));
            var c := Blank("c").(location := Str("LA"));
            var s := Store(["a", "b", "c"], map["a" := a, "b" := b, "c" := c]);
            Valid(s) && GetFilterOptions(s, true).response.body.options.location == {Str("NY"), Str("LA")}
  {
    var a := Blank("a").(location := Str("NY"));
    var b := Blank("b").(location := Str("NY"));
    var c := Blank("c").(location := Str("LA"));
    var s := Store(["a", "b", "c"], map["a" := a, "b" := b, "c" := c]);
    forall l | l in s.records.Values ensures l == a || l == b || l == c {
      var k :| k in s.records && s.records[k] == l;
    }
    assert s.records["a"] == a && s.records["c"] == c;
    var vs := DistinctValues(s, (l: Listing) => l.location);
    assert Str("NY") in vs by { assert a in s.records.Values; }
    assert Str("LA") in vs by { assert c in s.records.Values; }
  }
}

=== FILE: products_view.dfy ===
/**
  The public listing browser: the approved-only base set fetched from the
  listing API, the category and city option lists derived from it, the
  fixed price brackets, and the filter pipeline that narrows the base set
  by category, price bracket, city and selected feature values.

  The pipeline runs its four steps in the order the view writes them; a
  step whose control is empty passes its input through. The feature step
  reads `product.features[key]`, which throws a TypeError when a listing's
  `features` is null or undefined; the pipeline then produces no list.
 */
module ProductsView {
  import opened JsValues
  import opened Sequences
  import opened Listings
  import opened Http
  import ProductController
  import Registry

  /** The filter controls: selected category, price bracket (`"min-max"`),
      city, and the selected value of each feature control touched so far.
      An empty string is an unselected control. */
  datatype FilterState = FilterState(
    category: string,
    price: string,
    city: string,
    features: map<string, string>)

  const NoFilters: FilterState := FilterState("", "", "", map[])

  /** `setSelectedFeatures({ ...selectedFeatures, [key]: value })`. */
  function SelectFeature(st: FilterState, key: string, value: string): (r: FilterState)
    ensures r.category == st.category && r.price == st.price && r.city == st.city
    ensures key in r.features && r.features[key] == value
    ensures forall k :: k != key ==> (k in r.features <==> k in st.features)
    ensures forall k :: k != key && k in st.features ==> r.features[k] == st.features[k]
  {
    st.(features := st.features[key := value])
  }

  /** The feature keys the view has controls for (shown for vehicles). */
  const FeatureControls: seq<string> := ["seatingCapacity", "fuelType"]

  // ---------------------------------------------------------------------
  // Price brackets

  datatype PriceRange = PriceRange(caption: string, value: string)

  const PriceRanges: seq<PriceRange> := [
    PriceRange("$0 - $1000", "0-1000"),
    PriceRange("$1001 - $5000", "1001-5000"),
    PriceRange("$5001 - $10000", "5001-10000")
  ]

  /** `const [minPrice, maxPrice] = bracket.split('-').map(Number)`; a
      missing second piece leaves `maxPrice` undefined, which, like NaN,
      fails every comparison. */
  function BracketBounds(bracket: string): (Option<int>, Option<int>)
  {
    var pieces := Split(bracket, '-');
    (StringToNumber(pieces[0]), if |pieces| > 1 then StringToNumber(pieces[1]) else None)
  }

  // ---------------------------------------------------------------------
  // The per-listing tests of the four steps

  predicate CategoryHolds(l: Listing, category: string)
  {
    l.category == Str(category)
  }

  /** `Number(product.Price) >= minPrice && Number(product.Price) <= maxPrice`. */
  predicate PriceHolds(l: Listing, bracket: string)
  {
    var bounds := BracketBounds(bracket);
    var p := ToNumber(l.price);
    p.Some? && bounds.0.Some? && bounds.1.Some? && bounds.0.value <= p.value <= bounds.1.value
  }

  predicate CityHolds(l: Listing, city: string)
  {
    l.location == Str(city)
  }

  /** Every selected feature value equals `product.features[key]` strictly. */
  predicate FeaturesHold(l: Listing, selected: map<string, string>)
  {
    forall key :: key in selected ==> ReadProperty(l.features, key) == Normal(Str(selected[key]))
  }

  /** The three steps that cannot throw. */
  predicate PassesScalarFilters(l: Listing, st: FilterState)
  {
    && (st.category == "" || CategoryHolds(l, st.category))
    && (st.price == "" || PriceHolds(l, st.price))
    && (st.city == "" || CityHolds(l, st.city))
  }

  /** The conjunction of every active filter. */
  predicate Passes(l: Listing, st: FilterState)
  {
    PassesScalarFilters(l, st) && (|st.features| == 0 || FeaturesHold(l, st.features))
  }

  // ---------------------------------------------------------------------
  // The pipeline as the view runs it

  function CategoryStage(xs: seq<Listing>, category: string): seq<Listing>
  {
    if category != "" then Filter(xs, l => CategoryHolds(l, category)) else xs
  }

  function PriceStage(xs: seq<Listing>, bracket: string): seq<Listing>
  {
    if bracket != "" then Filter(xs, l => PriceHolds(l, bracket)) else xs
  }

  function CityStage(xs: seq<Listing>, city: string): seq<Listing>
  {
    if city != "" then Filter(xs, l => CityHolds(l, city)) else xs
  }

  /** The loop over `Object.entries(selectedFeatures)` for one listing: it
      reads `product.features` for the first entry, so it throws exactly
      when there is an entry and `features` is null or undefined. */
  function FeatureCheck(l: Listing, selected: map<string, string>): (r: Completion<bool>)
    ensures r.Throw? <==> |selected| > 0 && IsNullish(l.features)
    ensures r.Normal? ==> r.value == FeaturesHold(l, selected)
  {
    if |selected| == 0 then Normal(true)
    else if IsNullish(l.features) then Throw(TypeError)
    else Normal(FeaturesHold(l, selected))
  }

  /** `xs.filter(product => { for (...) ... })`: the first listing whose check
      throws aborts the whole filter. */
  function FilterByFeatures(xs: seq<Listing>, selected: map<string, string>): (r: Completion<seq<Listing>>)
    ensures r.Throw? <==> |selected| > 0 && exists l :: l in xs && IsNullish(l.features)
    ensures r.Normal? ==> r.value == Filter(xs, l => FeaturesHold(l, selected))
    decreases |xs|
  {
    if |xs| == 0 then Normal([])
    else
      assert forall l :: l in xs <==> l == xs[0] || l in xs[1..];
      match FeatureCheck(xs[0], selected)
      case Throw(e) => Throw(e)
      case Normal(keep) =>
        match FilterByFeatures(xs[1..], selected)
        case Throw(e) => Throw(e)
        case Normal(rest) => Normal(if keep then [xs[0]] + rest else rest)
  }

  function FeaturesStage(xs: seq<Listing>, selected: map<string, string>): Completion<seq<Listing>>
  {
    if |selected| > 0 then FilterByFeatures(xs, selected) else Normal(xs)
  }

  /** `applyFilters`: category, then price, then city, then features. */
  function ApplyFilters(products: seq<Listing>, st: FilterState): (r: Completion<seq<Listing>>)
    ensures r.Throw? <==>
      |st.features| > 0 && exists l :: l in products && PassesScalarFilters(l, st) && IsNullish(l.features)
    ensures r.Normal? ==> forall l :: l in r.value <==> l in products && Passes(l, st)
  {
    var afterCategory := CategoryStage(products, st.category);
    var afterPrice := PriceStage(afterCategory, st.price);
    var afterCity := CityStage(afterPrice, st.city);
    FeaturesStage(afterCity, st.features)
  }

  // ---------------------------------------------------------------------
  // The pipeline is one filter by the conjunction

  lemma ScalarStagesAreOneFilter(xs: seq<Listing>, st: FilterState)
    ensures CityStage(PriceStage(CategoryStage(xs, st.category), st.price), st.city)
         == Filter(xs, l => PassesScalarFilters(l, st))
  {
    var c := (l: Listing) => st.category == "" || CategoryHolds(l, st.category);
    var p := (l: Listing) => st.price == "" || PriceHolds(l, st.price);
    var t := (l: Listing) => st.city == "" || CityHolds(l, st.city);
    var cp := (l: Listing) => c(l) && p(l);
    var all := (l: Listing) => PassesScalarFilters(l, st);
    var s1 := CategoryStage(xs, st.category);
    if st.category == "" { FilterKeepsAll(xs, c); } else { FilterCongruent(xs, c, l => CategoryHolds(l, st.category)); }
    assert s1 == Filter(xs, c);
    var s2 := PriceStage(s1, st.price);
    if st.price == "" { FilterKeepsAll(s1, p); } else { FilterCongruent(s1, p, l => PriceHolds(l, st.price)); }
    assert s2 == Filter(s1, p);
    FilterFusion(xs, c, p, cp);
    var s3 := CityStage(s2, st.city);
    if st.city == "" { FilterKeepsAll(s2, t); } else { FilterCongruent(s2, t, l => CityHolds(l, st.city)); }
    assert s3 == Filter(s2, t);
    FilterFusion(xs, cp, t, all);
  }

  /** When the pipeline produces a list, it is exactly the listings of the
      base set that pass every active filter, in base-set order. */
  lemma {:induction false} ApplyFiltersIsOneFilter(products: seq<Listing>, st: FilterState)
    ensures ApplyFilters(products, st).Normal? ==>
      ApplyFilters(products, st).value == Filter(products, l => Passes(l, st))
    ensures ApplyFilters(products, st).Normal? ==>
      IsSubsequence(ApplyFilters(products, st).value, products)
  {
    var r := ApplyFilters(products, st);
    var scalar := (l: Listing) => PassesScalarFilters(l, st);
    var feature := (l: Listing) => |st.features| == 0 || FeaturesHold(l, st.features);
    var s3 := CityStage(PriceStage(CategoryStage(products, st.category), st.price), st.city);
    ScalarStagesAreOneFilter(products, st);
    if r.Normal? {
      if |st.features| == 0 {
        FilterKeepsAll(s3, feature);
      } else {
        FilterCongruent(s3, feature, l => FeaturesHold(l, st.features));
      }
      assert r.value == Filter(s3, feature);
      FilterFusion(products, scalar, feature, l => Passes(l, st));
    }
  }

  /** Running the filters on their own output changes nothing. */
  lemma ApplyFiltersIdempotent(products: seq<Listing>, st: FilterState)
    requires ApplyFilters(products, st).Normal?
    ensures ApplyFilters(ApplyFilters(products, st).value, st) == ApplyFilters(products, st)
  {
    var once := ApplyFilters(products, st).value;
    ApplyFiltersIsOneFilter(products, st);
    ApplyFiltersIsOneFilter(once, st);
    FilterIdempotent(products, l => Passes(l, st));
  }

  /** With every control empty the base set is shown as it is. */
  lemma NoFiltersShowsEverything(products: seq<Listing>)
    ensures ApplyFilters(products, NoFilters) == Normal(products)
  {
  }

  // ---------------------------------------------------------------------
  // The order of the steps does not matter

  datatype Step = CategoryStep | PriceStep | CityStep | FeaturesStep

  const ViewOrder: seq<Step> := [CategoryStep, PriceStep, CityStep, FeaturesStep]

  predicate StepHolds(l: Listing, st: FilterState, step: Step)
  {
    match step
    case CategoryStep => st.category == "" || CategoryHolds(l, st.category)
    case PriceStep => st.price == "" || PriceHolds(l, st.price)
    case CityStep => st.city == "" || CityHolds(l, st.city)
    case FeaturesStep => |st.features| == 0 || FeaturesHold(l, st.features)
  }

  function RunStep(xs: seq<Listing>, st: FilterState, step: Step): Completion<seq<Listing>>
  {
    match step
    case CategoryStep => Normal(CategoryStage(xs, st.category))
    case PriceStep => Normal(PriceStage(xs, st.price))
    case CityStep => Normal(CityStage(xs, st.city))
    case FeaturesStep => FeaturesStage(xs, st.features)
  }

  /** The steps run one after another, stopping at the first throw. */
  function RunSteps(xs: seq<Listing>, st: FilterState, steps: seq<Step>): Completion<seq<Listing>>
    decreases |steps|
  {
    if |steps| == 0 then Normal(xs)
    else
      match RunStep(xs, st, steps[0])
      case Throw(e) => Throw(e)
      case Normal(ys) => RunSteps(ys, st, steps[1..])
  }

  lemma ViewOrderIsApplyFilters(products: seq<Listing>, st: FilterState)
    ensures RunSteps(products, st, ViewOrder) == ApplyFilters(products, st)
  {
    var s1 := CategoryStage(products, st.category);
    var s2 := PriceStage(s1, st.price);
    var s3 := CityStage(s2, st.city);
    var afterCategory := ViewOrder[1..];
    var afterPrice := afterCategory[1..];
    var afterCity := afterPrice[1..];
    calc {
      RunSteps(products, st, ViewOrder);
    == { RunScalarStep(products, st, ViewOrder); }
      RunSteps(s1, st, afterCategory);
    == { RunScalarStep(s1, st, afterCategory); }
      RunSteps(s2, st, afterPrice);
    == { RunScalarStep(s2, st, afterPrice); }
      RunSteps(s3, st, afterCity);
    == { RunFeaturesStep(s3, st, afterCity); }
      FeaturesStage(s3, st.features);
    ==
      ApplyFilters(products, st);
    }
  }

  /** A first step that cannot throw hands its output to the remaining
      steps. */
  lemma RunScalarStep(xs: seq<Listing>, st: FilterState, steps: seq<Step>)
    requires |steps| > 0 && steps[0] != FeaturesStep
    ensures RunStep(xs, st, steps[0]).Normal?
    ensures RunSteps(xs, st, steps) == RunSteps(RunStep(xs, st, steps[0]).value, st, steps[1..])
  {
  }

  /** The feature step run last is the feature stage. */
  lemma RunFeaturesStep(xs: seq<Listing>, st: FilterState, steps: seq<Step>)
    requires steps == [FeaturesStep]
    ensures RunSteps(xs, st, steps) == FeaturesStage(xs, st.features)
  {
    assert steps[1..] == [];
    match FeaturesStage(xs, st.features)
    case Throw(e) =>
    case Normal(ys) =>
  }

  predicate NoNullFeatures(xs: seq<Listing>)
  {
    forall l :: l in xs ==> !IsNullish(l.features)
  }

  predicate AllStepsHold(l: Listing, st: FilterState, steps: seq<Step>)
  {
    forall i :: 0 <= i < |steps| ==> StepHolds(l, st, steps[i])
  }

  lemma StepIsFilter(xs: seq<Listing>, st: FilterState, step: Step)
    requires step == FeaturesStep ==> |st.features| == 0 || NoNullFeatures(xs)
    ensures RunStep(xs, st, step) == Normal(Filter(xs, l => StepHolds(l, st, step)))
  {
    var h := (l: Listing) => StepHolds(l, st, step);
    match step
    case CategoryStep =>
      if st.category == "" { FilterKeepsAll(xs, h); } else { FilterCongruent(xs, h, l => CategoryHolds(l, st.category)); }
    case PriceStep =>
      if st.price == "" { FilterKeepsAll(xs, h); } else { FilterCongruent(xs, h, l => PriceHolds(l, st.price)); }
    case CityStep =>
      if st.city == "" { FilterKeepsAll(xs, h); } else { FilterCongruent(xs, h, l => CityHolds(l, st.city)); }
    case FeaturesStep =>
      if |st.features| == 0 {
        FilterKeepsAll(xs, h);
      } else {
        FilterCongruent(xs, h, l => FeaturesHold(l, st.features));
      }
  }

  /** Any sequence of steps is one filter by the conjunction of its steps,
      as long as no feature read can throw. */
  lemma {:induction false} RunStepsIsOneFilter(xs: seq<Listing>, st: FilterState, steps: seq<Step>)
    requires |st.features| == 0 || NoNullFeatures(xs)
    ensures RunSteps(xs, st, steps) == Normal(Filter(xs, l => AllStepsHold(l, st, steps)))
    decreases |steps|
  {
    if |steps| == 0 {
      FilterKeepsAll(xs, l => AllStepsHold(l, st, steps));
    } else {
      StepIsFilter(xs, st, steps[0]);
      var ys := Filter(xs, l => StepHolds(l, st, steps[0]));
      RunStepsIsOneFilter(ys, st, steps[1..]);
      forall l ensures AllStepsHold(l, st, steps) == (StepHolds(l, st, steps[0]) && AllStepsHold(l, st, steps[1..])) {
        if StepHolds(l, st, steps[0]) && AllStepsHold(l, st, steps[1..]) {
          forall i | 0 <= i < |steps| ensures StepHolds(l, st, steps[i]) {
            if i > 0 { assert steps[i] == steps[1..][i - 1]; }
          }
        }
        if AllStepsHold(l, st, steps) {
          forall i | 0 <= i < |steps| - 1 ensures StepHolds(l, st, steps[1..][i]) {
            assert steps[1..][i] == steps[i + 1];
          }
        }
      }
      FilterFusion(xs, l => StepHolds(l, st, steps[0]), l => AllStepsHold(l, st, steps[1..]), l => AllStepsHold(l, st, steps));
    }
  }

  /** The four steps give the same list in whatever order they run (and
      repeating a step changes nothing), provided no listing has a null or
      undefined `features` that an earlier step would not have removed. */
  lemma StepOrderIrrelevant(products: seq<Listing>, st: FilterState, steps: seq<Step>)
    requires |st.features| == 0 || NoNullFeatures(products)
    requires forall step: Step :: step in steps
    ensures RunSteps(products, st, steps) == Normal(Filter(products, l => Passes(l, st)))
    ensures RunSteps(products, st, steps) == ApplyFilters(products, st)
  {
    RunStepsIsOneFilter(products, st, steps);
    assert CategoryStep in steps && PriceStep in steps;
    assert CityStep in steps && FeaturesStep in steps;
    forall l ensures AllStepsHold(l, st, steps) == Passes(l, st) {
      var ic :| 0 <= ic < |steps| && steps[ic] == CategoryStep;
      var ip :| 0 <= ip < |steps| && steps[ip] == PriceStep;
      var it :| 0 <= it < |steps| && steps[it] == CityStep;
      var iff :| 0 <= iff < |steps| && steps[iff] == FeaturesStep;
      if AllStepsHold(l, st, steps) {
        assert StepHolds(l, st, steps[ic]) && StepHolds(l, st, steps[ip]);
        assert StepHolds(l, st, steps[it]) && StepHolds(l, st, steps[iff]);
      }
    }
    FilterCongruent(products, l => AllStepsHold(l, st, steps), l => Passes(l, st));
    ApplyFiltersIsOneFilter(products, st);
    assert ApplyFilters(products, st).Normal?;
  }

  // ---------------------------------------------------------------------
  // Price brackets and feature values

  /** A bracket spelled `"a-b"` keeps exactly the listings whose price
      converts to a number between `a` and `b`, both ends included. */
  lemma BracketMeaning(a: nat, b: nat, l: Listing)
    ensures PriceHolds(l, DecimalString(a) + "-" + DecimalString(b)) <==>
      ToNumber(l.price).Some? && a <= ToNumber(l.price).value <= b
  {
    var sa, sb := DecimalString(a), DecimalString(b);
    assert '-' !in sa && '-' !in sb by {
      assert forall c :: c in sa ==> IsDigit(c);
      assert forall c :: c in sb ==> IsDigit(c);
    }
    SplitAfterPiece(sa, '-', sb);
    SplitWithoutSeparator(sb, '-');
    NumberOfDecimalString(a);
    NumberOfDecimalString(b);
  }

  /** A price that does not convert to a number is outside every bracket. */
  lemma NotANumberNeverInBracket(l: Listing, bracket: string)
    requires ToNumber(l.price) == None
    ensures !PriceHolds(l, bracket)
  {
  }

  /** The decimal spellings of the bracket limits. */
  lemma BracketLimitSpellings()
    ensures DecimalString(0) == "0" && DecimalString(1000) == "1000"
    ensures DecimalString(1001) == "1001" && DecimalString(5000) == "5000"
    ensures DecimalString(5001) == "5001" && DecimalString(10000) == "10000"
  {
    assert DecimalString(1) == "1";
    assert DecimalString(10) == "10";
    assert DecimalString(100) == "100";
    assert DecimalString(1000) == "1000";
    assert DecimalString(1001) == "1001";
    assert DecimalString(5) == "5";
    assert DecimalString(50) == "50";
    assert DecimalString(500) == "500";
    assert DecimalString(5000) == "5000";
    assert DecimalString(5001) == "5001";
    assert DecimalString(10000) == "10000";
  }

  /** One offered bracket `"lo-hi"`, spelled as the view spells it, means
      the inclusive range from `lo` to `hi`. */
  lemma OfferedBracket(l: Listing, bracket: string, lo: nat, hi: nat)
    requires bracket == DecimalString(lo) + "-" + DecimalString(hi)
    ensures PriceHolds(l, bracket) <==> ToNumber(l.price).Some? && lo <= ToNumber(l.price).value <= hi
  {
    BracketMeaning(lo, hi, l);
  }

  /** The option values of the offered brackets, as spelled from their
      limits. */
  lemma OfferedBracketValues()
    ensures PriceRanges[0].value == DecimalString(0) + "-" + DecimalString(1000)
    ensures PriceRanges[1].value == DecimalString(1001) + "-" + DecimalString(5000)
    ensures PriceRanges[2].value == DecimalString(5001) + "-" + DecimalString(10000)
  {
    BracketLimitSpellings();
  }

  /** The three offered brackets are [0, 1000], [1001, 5000] and
      [5001, 10000]. */
  lemma OfferedBrackets(l: Listing)
    ensures PriceHolds(l, PriceRanges[0].value) <==> ToNumber(l.price).Some? && 0 <= ToNumber(l.price).value <= 1000
    ensures PriceHolds(l, PriceRanges[1].value) <==> ToNumber(l.price).Some? && 1001 <= ToNumber(l.price).value <= 5000
    ensures PriceHolds(l, PriceRanges[2].value) <==> ToNumber(l.price).Some? && 5001 <= ToNumber(l.price).value <= 10000
  {
    OfferedBracketValues();
    OfferedBracket(l, PriceRanges[0].value, 0, 1000);
    OfferedBracket(l, PriceRanges[1].value, 1001, 5000);
    OfferedBracket(l, PriceRanges[2].value, 5001, 10000);
  }

  /** Every whole price from 0 to 10000 falls in exactly one offered
      bracket. */
  lemma OfferedBracketsPartition(l: Listing)
    requires ToNumber(l.price).Some? && 0 <= ToNumber(l.price).value <= 10000
    ensures exists i :: 0 <= i < |PriceRanges| && PriceHolds(l, PriceRanges[i].value)
    ensures forall i, j ::
      && 0 <= i < |PriceRanges| && PriceHolds(l, PriceRanges[i].value)
      && 0 <= j < |PriceRanges| && PriceHolds(l, PriceRanges[j].value)
      ==> i == j
  {
    OfferedBrackets(l);
    var p := ToNumber(l.price).value;
    var k := if p <= 1000 then 0 else if p <= 5000 then 1 else 2;
    assert PriceHolds(l, PriceRanges[k].value);
    forall i | 0 <= i < |PriceRanges| && PriceHolds(l, PriceRanges[i].value) ensures i == k {
      assert i == 0 || i == 1 || i == 2;
    }
  }

  /** A feature control once touched stays in the selection: set back to
      its empty option it demands the empty string, so it excludes every
      listing whose value for that key is anything else, including listings
      that lack the key. */
  lemma ResetFeatureStaysActive(st: FilterState, key: string, l: Listing)
    requires ReadProperty(l.features, key) != Normal(Str(""))
    ensures !Passes(l, SelectFeature(st, key, ""))
  {
  }

  /** A listing without the selected key never passes the feature step. */
  lemma MissingFeatureExcluded(st: FilterState, key: string, l: Listing)
    requires key in st.features
    requires l.features.Obj? && key !in l.features.props
    ensures !Passes(l, st)
  {
    assert ReadProperty(l.features, key) == Normal(Undefined);
  }

  /** The feature keys the view filters on are keys the registry lists for
      vehicles, and so is the key the filter-options endpoint enumerates. */
  lemma FeatureControlsAreRegistered()
    ensures forall key :: key in FeatureControls ==> key in Registry.FeaturesFor("vehicles").keys
    ensures "fuelType" in Registry.FeaturesFor("vehicles").keys
  {
    Registry.VehiclesLookup();
    assert Registry.VehicleFeatures[1] == "seatingCapacity";
    assert Registry.VehicleFeatures[3] == "fuelType";
  }

  // ---------------------------------------------------------------------
  // The base set and the option lists

  /** `[...new Set(products.map(p => p.category))]`. */
  function AllCategories(products: seq<Listing>): (options: seq<JsValue>)
    ensures NoDuplicates(options)
    ensures forall v :: v in options <==> exists l :: l in products && l.category == v
    ensures forall v :: v in options <==> v in CategoriesOf(products)
    ensures forall i, j :: 0 <= i < j < |options| ==>
      FirstIndex(CategoriesOf(products), options[i]) < FirstIndex(CategoriesOf(products), options[j])
  {
    var vs := CategoriesOf(products);
    assert forall v :: v in vs <==> exists l :: l in products && l.category == v by {
      forall v | v in vs ensures exists l :: l in products && l.category == v {
        var i :| 0 <= i < |vs| && vs[i] == v;
        assert products[i] in products;
      }
      forall l | l in products ensures l.category in vs {
        var i :| 0 <= i < |products| && products[i] == l;
        assert vs[i] == l.category;
      }
    }
    Distinct(vs)
  }

  function CategoriesOf(products: seq<Listing>): (vs: seq<JsValue>)
    ensures |vs| == |products|
    ensures forall i :: 0 <= i < |products| ==> vs[i] == products[i].category
  {
    seq(|products|, i requires 0 <= i < |products| => products[i].category)
  }

  /** `[...new Set(products.map(p => p.location))]`. */
  function AllCities(products: seq<Listing>): (options: seq<JsValue>)
    ensures NoDuplicates(options)
    ensures forall v :: v in options <==> exists l :: l in products && l.location == v
    ensures forall v :: v in options <==> v in CitiesOf(products)
    ensures forall i, j :: 0 <= i < j < |options| ==>
      FirstIndex(CitiesOf(products), options[i]) < FirstIndex(CitiesOf(products), options[j])
  {
    var vs := CitiesOf(products);
    assert forall v :: v in vs <==> exists l :: l in products && l.location == v by {
      forall v | v in vs ensures exists l :: l in products && l.location == v {
        var i :| 0 <= i < |vs| && vs[i] == v;
        assert products[i] in products;
      }
      forall l | l in products ensures l.location in vs {
        var i :| 0 <= i < |products| && products[i] == l;
        assert vs[i] == l.location;
      }
    }
    Distinct(vs)
  }

  function CitiesOf(products: seq<Listing>): (vs: seq<JsValue>)
    ensures |vs| == |products|
    ensures forall i :: 0 <= i < |products| ==> vs[i] == products[i].location
  {
    seq(|products|, i requires 0 <= i < |products| => products[i].location)
  }

  /** The view's category options over a full listing and the server's
      distinct categories name the same values, apart from listings
      without a category. */
  lemma CategoryOptionsAgreeWithServer(s: ProductController.Store)
    requires ProductController.Valid(s)
    ensures (set v | v in AllCategories(ProductController.Contents(s)) && v != Undefined)
         == ProductController.DistinctValues(s, (l: Listing) => l.category)
  {
    var listed := ProductController.Contents(s);
    var server := ProductController.DistinctValues(s, (l: Listing) => l.category);
    forall v | v in server ensures v in AllCategories(listed) {
      var l :| l in s.records.Values && l.category == v;
      assert l in listed;
    }
  }

  /** Where the view fetches its base set from. */
  datatype Endpoint = AllProducts | SearchFor(query: string)

  /** `if (query)`: the search endpoint exactly when the URL carries a
      non-empty `query` parameter. */
  function ChooseEndpoint(query: Option<string>): (e: Endpoint)
    ensures e.SearchFor? <==> query.Some? && query.value != ""
    ensures e.SearchFor? ==> e.query == query.value
  {
    if query.Some? && query.value != "" then SearchFor(query.value) else AllProducts
  }

  /** `response.data.filter(product => product.isApproved)`, or the current
      base set unchanged when the request fails. */
  function BaseAfterFetch(current: seq<Listing>, response: Response): (base: seq<Listing>)
    ensures FetchedListings(response).None? ==> base == current
    ensures FetchedListings(response).Some? ==>
      forall l :: l in base <==> l in FetchedListings(response).value && Truthy(l.isApproved)
    ensures FetchedListings(response).Some? ==>
      forall l :: multiset(base)[l] == if Truthy(l.isApproved) then multiset(FetchedListings(response).value)[l] else 0
    ensures FetchedListings(response).Some? ==> IsSubsequence(base, FetchedListings(response).value)
  {
    match FetchedListings(response)
    case None => current
    case Some(data) =>
      FilterCounts(data, (l: Listing) => Truthy(l.isApproved));
      Filter(data, (l: Listing) => Truthy(l.isApproved))
  }

  /** The response the listing API gives the view's request. */
  function Serve(s: ProductController.Store, e: Endpoint, reachable: bool): Response
    requires ProductController.Valid(s)
  {
    match e
    case AllProducts => ProductController.GetProducts(s, reachable).response
    case SearchFor(q) => ProductController.SearchProducts(s, q, reachable).response
  }

  /** End to end: the browser's base set holds exactly the approved stored
      listings, narrowed to those matching the query when one is given. */
  lemma BaseSetFromStore(s: ProductController.Store, query: Option<string>, current: seq<Listing>)
    requires ProductController.Valid(s)
    ensures var base := BaseAfterFetch(current, Serve(s, ChooseEndpoint(query), true));
      forall l :: l in base <==>
        && l in s.records.Values
        && Truthy(l.isApproved)
        && (query.Some? && query.value != "" ==> ProductController.MatchesQuery(l, query.value))
  {
  }

  /** A failed fetch leaves the base set as it was. */
  lemma FailedFetchKeepsBase(s: ProductController.Store, query: Option<string>, current: seq<Listing>)
    requires ProductController.Valid(s)
    ensures BaseAfterFetch(current, Serve(s, ChooseEndpoint(query), false)) == current
  {
  }

  // ---------------------------------------------------------------------
  // Worked examples

  /** Filtering a two-listing base set keeps the ones that pass, in order. */
  lemma TwoListingFilter(v: Listing, a: Listing, st: FilterState)
    requires |st.features| == 0 || (!IsNullish(v.features) && !IsNullish(a.features))
    ensures ApplyFilters([v, a], st) == Normal(
      (if Passes(v, st) then [v] else []) + (if Passes(a, st) then [a] else []))
  {
    var xs := [v, a];
    var passes := (l: Listing) => Passes(l, st);
    ApplyFiltersIsOneFilter(xs, st);
    assert !ApplyFilters(xs, st).Throw? by {
      if |st.features| > 0 {
        assert forall l :: l in xs ==> l == v || l == a;
      }
    }
    FilterPair(v, a, passes);
  }

  /** Selecting the vehicles category shows the vehicle, not the apartment. */
  lemma CategoryExample(v: Listing, a: Listing)
    requires v.category == Str("vehicles") && a.category == Str("apartments")
    ensures ApplyFilters([v, a], NoFilters.(category := "vehicles")) == Normal([v])
  {
    var st := NoFilters.(category := "vehicles");
    assert "apartments"[0] != "vehicles"[0];
    assert Passes(v, st);
    assert !Passes(a, st);
    TwoListingFilter(v, a, st);
    assert [v] + [] == [v];
  }

  /** A bracket `"lo-hi"` shows a listing priced inside it and hides one
      priced outside it (for the offered brackets see `OfferedBrackets`). */
  lemma BracketExample(v: Listing, a: Listing, lo: nat, hi: nat)
    requires !(ToNumber(v.price).Some? && lo <= ToNumber(v.price).value <= hi)
    requires ToNumber(a.price).Some? && lo <= ToNumber(a.price).value <= hi
    ensures ApplyFilters([v, a], NoFilters.(price := DecimalString(lo) + "-" + DecimalString(hi))) == Normal([a])
  {
    var st := NoFilters.(price := DecimalString(lo) + "-" + DecimalString(hi));
    BracketMeaning(lo, hi, v);
    BracketMeaning(lo, hi, a);
    assert !Passes(v, st) && Passes(a, st);
    TwoListingFilter(v, a, st);
    assert [] + [a] == [a];
  }

  /** The steps combine by conjunction: with a vehicle priced outside the
      $1001 - $5000 bracket and an apartment priced inside it, each control
      alone keeps one listing and the two together keep none. */
  lemma CategoryAndBracketExample(v: Listing, a: Listing)
    requires v.category == Str("vehicles") && a.category == Str("apartments")
    requires !(ToNumber(v.price).Some? && 1001 <= ToNumber(v.price).value <= 5000)
    requires ToNumber(a.price).Some? && 1001 <= ToNumber(a.price).value <= 5000
    ensures ApplyFilters([v, a], NoFilters.(category := "vehicles")) == Normal([v])
    ensures ApplyFilters([v, a], NoFilters.(price := "1001-5000")) == Normal([a])
    ensures ApplyFilters([v, a], NoFilters.(category := "vehicles", price := "1001-5000")) == Normal([])
  {
    CategoryExample(v, a);
    OfferedBrackets(v);
    OfferedBrackets(a);
    assert PriceRanges[1].value == "1001-5000";
    var price := NoFilters.(price := "1001-5000");
    assert !Passes(v, price) && Passes(a, price);
    TwoListingFilter(v, a, price);
    assert [] + [a] == [a];
    var both := NoFilters.(category := "vehicles", price := "1001-5000");
    assert "apartments"[0] != "vehicles"[0];
    assert !Passes(v, both) && !Passes(a, both);
    TwoListingFilter(v, a, both);
  }

  /** Selecting petrol drops a diesel vehicle and an apartment without a
      fuel type; selecting diesel keeps the vehicle only. */
  lemma FuelTypeExample(v: Listing, a: Listing)
    requires v.features == Obj(map["fuelType" := Str("diesel")])
    requires a.features == Obj(map["numberOfRooms" := Num(3)])
    ensures ApplyFilters([v, a], NoFilters.(features := map["fuelType" := "petrol"])) == Normal([])
    ensures ApplyFilters([v, a], NoFilters.(features := map["fuelType" := "diesel"])) == Normal([v])
  {
    var petrol := NoFilters.(features := map["fuelType" := "petrol"]);
    var diesel := NoFilters.(features := map["fuelType" := "diesel"]);
    assert ReadProperty(v.features, "fuelType") == Normal(Str("diesel"));
    assert ReadProperty(a.features, "fuelType") == Normal(Undefined);
    assert "petrol"[0] != "diesel"[0];
    assert !FeaturesHold(v, petrol.features) && !FeaturesHold(a, petrol.features);
    assert FeaturesHold(v, diesel.features) && !FeaturesHold(a, diesel.features);
    TwoListingFilter(v, a, petrol);
    TwoListingFilter(v, a, diesel);
    assert [v] + [] == [v];
  }

  /** A listing without a `features` object makes any feature selection
      throw, even when no other listing is affected. */
  lemma NullFeaturesExample()
    ensures forall v: Listing, key: string, value: string ::
      ApplyFilters([v, Blank("3")], NoFilters.(features := map[key := value])).Throw?
  {
    forall v: Listing, key: string, value: string
      ensures ApplyFilters([v, Blank("3")], NoFilters.(features := map[key := value])).Throw?
    {
      assert Blank("3") in [v, Blank("3")];
    }
  }
}

=== FILE: registry.dfy ===
/**
  The category/feature registry of the server: a constant table from a
  category name to the feature keys the creation and edit forms offer for
  it, and the `/:category/features` lookup over it. Unknown categories get
  the empty list, except the names every plain object inherits from
  `Object.prototype`, whose truthy member passes through `|| []`. Nothing
  on the server validates `features` against the table.
 */
module Registry {
  import opened Sequences

  const VehicleFeatures: seq<string> := [
    "ManufacturerName", "seatingCapacity", "Kilometers", "fuelType", "transmission",
    "Year", "Color", "exteriorColor", "variant", "trim", "bodyType"
  ]

  const ApartmentFeatures: seq<string> := ["numberOfRooms"]

  const Categories: map<string, seq<string>> := map[
    "vehicles" := VehicleFeatures,
    "apartments" := ApartmentFeatures
  ]

  /** The members every plain object inherits from `Object.prototype`. */
  const InheritedNames: set<string> := {
    "constructor", "hasOwnProperty", "isPrototypeOf", "propertyIsEnumerable",
    "toLocaleString", "toString", "valueOf", "__proto__",
    "__defineGetter__", "__defineSetter__", "__lookupGetter__", "__lookupSetter__"
  }

  /** What `categories[category] || []` evaluates to: a list of feature
      keys, or an inherited member (a function, or the prototype object
      itself for `__proto__`), which is truthy and so is returned as it is. */
  datatype Lookup = Keys(keys: seq<string>) | Inherited(name: string)

  /** `categories[category] || []`. Every configured list is non-empty, so a
      list comes back empty exactly for an unconfigured, uninherited name. */
  function FeaturesFor(category: string): (r: Lookup)
    ensures r.Inherited? <==> category in InheritedNames
    ensures r.Keys? ==> (r.keys == [] <==> category != "vehicles" && category != "apartments")
    ensures r.Keys? ==> NoDuplicates(r.keys)
  {
    if category in Categories then Keys(Categories[category])
    else if category in InheritedNames then Inherited(category)
    else Keys([])
  }

  lemma VehiclesLookup()
    ensures FeaturesFor("vehicles") == Keys(VehicleFeatures)
    ensures |FeaturesFor("vehicles").keys| == 11
    ensures FeaturesFor("vehicles").keys[0] == "ManufacturerName"
    ensures FeaturesFor("vehicles").keys[10] == "bodyType"
  {
  }

  lemma ApartmentsLookup()
    ensures FeaturesFor("apartments") == Keys(["numberOfRooms"])
  {
  }

  /** Any other name gives the empty list, unless it names an inherited
      member, which comes back instead of a list. */
  lemma UnknownCategoryLookup(category: string)
    requires category != "vehicles" && category != "apartments"
    ensures category !in InheritedNames ==> FeaturesFor(category) == Keys([])
    ensures category in InheritedNames ==> FeaturesFor(category) == Inherited(category)
  {
  }

  /** `GET /toString/features` does not answer with a list. */
  lemma InheritedNameLookup()
    ensures FeaturesFor("toString").Inherited?
    ensures FeaturesFor("constructor").Inherited?
    ensures FeaturesFor("cars") == Keys([])
  {
  }
}

=== FILE: sequences.dfy ===
/**
  The two list idioms the listing code is built from: `Array.prototype.filter`
  and `[...new Set(xs)]` (duplicate-free, first occurrence first).
 */
module Sequences {

  /** `ys` can be obtained from `xs` by deleting elements. */
  predicate IsSubsequence<T(==, !new)>(ys: seq<T>, xs: seq<T>)
    decreases |xs|
  {
    if |ys| == 0 then true
    else if |xs| == 0 then false
    else (ys[0] == xs[0] && IsSubsequence(ys[1..], xs[1..])) || IsSubsequence(ys, xs[1..])
  }

  predicate NoDuplicates<T(==, !new)>(xs: seq<T>)
  {
    forall i, j :: 0 <= i < j < |xs| ==> xs[i] != xs[j]
  }

  /** `xs.filter(p)`: the elements satisfying `p`, in their original order. */
  function Filter<T(==, !new)>(xs: seq<T>, p: T -> bool): (r: seq<T>)
    ensures |r| <= |xs|
    ensures forall x :: x in r <==> x in xs && p(x)
    ensures IsSubsequence(r, xs)
  {
    if |xs| == 0 then []
    else if p(xs[0]) then [xs[0]] + Filter(xs[1..], p)
    else Filter(xs[1..], p)
  }

  /** `filter` keeps every copy of an element that passes and no copy of
      one that fails. */
  lemma {:induction false} FilterCounts<T(!new)>(xs: seq<T>, p: T -> bool)
    ensures forall x :: multiset(Filter(xs, p))[x] == if p(x) then multiset(xs)[x] else 0
  {
    if |xs| > 0 {
      FilterCounts(xs[1..], p);
      assert xs == [xs[0]] + xs[1..];
    }
  }

  /** A filter whose predicate holds everywhere keeps the sequence as it is. */
  lemma {:induction false} FilterKeepsAll<T(!new)>(xs: seq<T>, p: T -> bool)
    requires forall x :: x in xs ==> p(x)
    ensures Filter(xs, p) == xs
  {
    if |xs| > 0 {
      assert xs[0] in xs;
      forall x | x in xs[1..] ensures p(x) {
        assert x in xs;
      }
      FilterKeepsAll(xs[1..], p);
      assert [xs[0]] + xs[1..] == xs;
    }
  }

  /** Two filters in a row are one filter by the conjunction. */
  lemma {:induction false} FilterFusion<T(!new)>(xs: seq<T>, p: T -> bool, q: T -> bool, both: T -> bool)
    requires forall x :: both(x) == (p(x) && q(x))
    ensures Filter(Filter(xs, p), q) == Filter(xs, both)
  {
    if |xs| > 0 {
      FilterFusion(xs[1..], p, q, both);
      if p(xs[0]) {
        assert ([xs[0]] + Filter(xs[1..], p))[1..] == Filter(xs[1..], p);
      }
    }
  }

  /** Filtering two elements keeps each one that passes, in order. */
  lemma FilterPair<T(!new)>(x: T, y: T, p: T -> bool)
    ensures Filter([x, y], p) == (if p(x) then [x] else []) + (if p(y) then [y] else [])
  {
    assert [x, y][1..] == [y];
    assert [y][1..] == [];
  }

  /** Filtering twice by the same predicate is filtering once. */
  lemma FilterIdempotent<T(!new)>(xs: seq<T>, p: T -> bool)
    ensures Filter(Filter(xs, p), p) == Filter(xs, p)
  {
    FilterFusion(xs, p, p, p);
  }

  /** Filtering a duplicate-free sequence leaves it duplicate-free. */
  lemma {:induction false} FilterKeepsNoDuplicates<T(!new)>(xs: seq<T>, p: T -> bool)
    requires NoDuplicates(xs)
    ensures NoDuplicates(Filter(xs, p))
  {
    if |xs| > 0 {
      NoDuplicatesSplit(xs);
      FilterKeepsNoDuplicates(xs[1..], p);
      if p(xs[0]) {
        NoDuplicatesCons(xs[0], Filter(xs[1..], p));
      }
    }
  }

  /** The tail of a duplicate-free sequence is duplicate-free and does not
      contain its head. */
  lemma NoDuplicatesSplit<T(!new)>(xs: seq<T>)
    requires |xs| > 0 && NoDuplicates(xs)
    ensures NoDuplicates(xs[1..]) && xs[0] !in xs[1..]
  {
    forall i, j | 0 <= i < j < |xs| - 1 ensures xs[1..][i] != xs[1..][j] {
      assert xs[1..][i] == xs[i + 1] && xs[1..][j] == xs[j + 1];
    }
    forall j | 0 <= j < |xs| - 1 ensures xs[1..][j] != xs[0] {
      assert xs[1..][j] == xs[j + 1];
    }
  }

  /** A new element in front of a duplicate-free sequence keeps it so. */
  lemma NoDuplicatesCons<T(!new)>(x: T, r: seq<T>)
    requires NoDuplicates(r) && x !in r
    ensures NoDuplicates([x] + r)
  {
    forall i, j | 0 <= i < j < |[x] + r| ensures ([x] + r)[i] != ([x] + r)[j] {
      assert ([x] + r)[j] == r[j - 1];
      if i == 0 {
        assert r[j - 1] in r;
      } else {
        assert ([x] + r)[i] == r[i - 1];
      }
    }
  }

  /** Only the predicate's values on the elements matter. */
  lemma {:induction false} FilterCongruent<T(!new)>(xs: seq<T>, p: T -> bool, q: T -> bool)
    requires forall x :: x in xs ==> p(x) == q(x)
    ensures Filter(xs, p) == Filter(xs, q)
  {
    if |xs| > 0 {
      assert xs[0] in xs;
      forall x | x in xs[1..] ensures p(x) == q(x) {
        assert x in xs;
      }
      FilterCongruent(xs[1..], p, q);
    }
  }

  // ---------------------------------------------------------------------
  // Duplicate-free, first occurrence first

  /** The position of the first occurrence of `x` in `xs`. */
  function FirstIndex<T(==, !new)>(xs: seq<T>, x: T): (i: nat)
    requires x in xs
    ensures i < |xs| && xs[i] == x && x !in xs[..i]
  {
    if xs[0] == x then 0 else 1 + FirstIndex(xs[1..], x)
  }

  /** Appending never moves a first occurrence that already exists. */
  lemma {:induction false} FirstIndexAppend<T(!new)>(xs: seq<T>, y: T, x: T)
    requires x in xs
    ensures FirstIndex(xs + [y], x) == FirstIndex(xs, x)
  {
    if xs[0] != x {
      assert (xs + [y])[1..] == xs[1..] + [y];
      FirstIndexAppend(xs[1..], y, x);
    }
  }

  /** `[...new Set(xs)]`: each value once, in order of first occurrence. */
  function Distinct<T(==, !new)>(xs: seq<T>): (r: seq<T>)
    ensures NoDuplicates(r)
    ensures forall x :: x in r <==> x in xs
    ensures forall i, j :: 0 <= i < j < |r| ==> FirstIndex(xs, r[i]) < FirstIndex(xs, r[j])
    decreases |xs|
  {
    if |xs| == 0 then []
    else
      var front := xs[..|xs| - 1];
      var last := xs[|xs| - 1];
      var d := Distinct(front);
      assert xs == front + [last];
      FirstIndexOfDistinctAppend(front, last, d);
      if last in d then d else d + [last]
  }

  /** The step of `Distinct`: the order of first occurrences survives
      appending one more element. */
  lemma FirstIndexOfDistinctAppend<T(!new)>(front: seq<T>, last: T, d: seq<T>)
    requires forall x :: x in d <==> x in front
    requires forall i, j :: 0 <= i < j < |d| ==> FirstIndex(front, d[i]) < FirstIndex(front, d[j])
    ensures last in d ==> forall i, j :: 0 <= i < j < |d| ==> FirstIndex(front + [last], d[i]) < FirstIndex(front + [last], d[j])
    ensures last !in d ==> forall i, j :: 0 <= i < j < |d + [last]| ==>
      FirstIndex(front + [last], (d + [last])[i]) < FirstIndex(front + [last], (d + [last])[j])
  {
    var xs := front + [last];
    forall k | 0 <= k < |d| ensures FirstIndex(xs, d[k]) == FirstIndex(front, d[k]) && FirstIndex(front, d[k]) < |front| {
      assert d[k] in d;
      FirstIndexAppend(front, last, d[k]);
    }
    if last !in d {
      assert last !in front;
      assert xs[|front|] == last;
      assert xs[..|front|] == front;
      assert FirstIndex(xs, last) == |front|;
      var e := d + [last];
      forall i, j | 0 <= i < j < |e| ensures FirstIndex(xs, e[i]) < FirstIndex(xs, e[j]) {
        if j < |d| {
          assert e[i] == d[i] && e[j] == d[j];
        } else {
          assert e[i] == d[i] && e[j] == last;
        }
      }
    }
  }
}
